=== FILE: README.md ===
# g3u8d core in Dafny

A model of the sequential core of g3u8d, an HLS (m3u8) segment downloader
written in Go. The downloader fetches every segment of a media playlist,
decrypts AES-128-CBC segments, and concatenates the finalized segment files
in playlist order. Three pieces are modelled:

1. **Segment decryption framing** (`pkg/decode/aes.go`). This covers PKCS#7
   padding and unpadding (section 6.3 of RFC 5652) and CBC chaining (section
   6.2 of NIST SP 800-38A) over an abstract invertible block cipher. It also
   covers the IV choice and the AES key-size check.
2. **Chunk bookkeeping and ordered merge** (`dl/chunk.go`, `dl/downloader.go`).
   `downloadChunk` is a transition function over a chunk record and the shared
   state: counters, a path-to-bytes file map and the retry queue. A run is a
   sequence of events applied one by one. `merge` is a fold over the chunks in
   index order.
3. **URL resolution** (`pkg/utils/url.go`). Go's `path.Join` and `path.Clean`
   are modelled as lexical cleaning of a list of `/`-separated elements.

Modules: `Wrappers` (Option, Result, bytes), `Pkcs7`, `Cbc`, `Aes`,
`GoStrings` (`strings.HasPrefix`, `strings.TrimRight`), `Paths`
(`path.Base`, `path.Clean`, `path.Join`), `Urls`, `Chunks`, `Downloader`,
`Merging`.

## Behaviour kept as the code has it

The model follows the code, including where it differs from RFC 8216:

- With no IV, the key's first 16 bytes are the IV. RFC 8216 section 5.2 says
  to use the media sequence number.
- The playlist's IV attribute text (for example `0x62da…`) is used as raw
  bytes (`dl/downloader.go:303`). RFC 8216 section 4.3.2.4 says to hex-decode
  it. See `Aes.IvTextUsedVerbatim`.
- After a fetch error with retries left, the chunk is enqueued. Control then
  falls through into the success path. Without a key, that path finalizes
  whatever part of the body was written, and the queued retry then does
  nothing, so the failed attempt is never re-fetched. See
  `Downloader.RetryFallsThroughToSuccess` and `Downloader.QueuedRetryIsNoOp`.
  With a key, the partial body goes to `AESDecrypt`. An empty body (the usual
  result of a connection error) fails `pkcs7UnPadding`, so the chunk is left
  in success with no file and the run is cancelled although retries remained.
  See `Downloader.EncryptedRetryCancels`.
- The status becomes success before decryption. A decryption or save failure
  therefore leaves the chunk in success, with no file path and no completion
  signal.
- Only the success status is ever written. Fail, downloading and merged are
  never assigned.
- A chunk that runs out of retries cancels the run. Every chunk's context is
  a child of the run's (`dl/downloader.go:225`), so after the cancellation
  both cases of merge's `select` are ready and Go picks one. When merge's
  wait sees the run's cancellation it returns `nil`, not an error. When it
  sees the unfinished chunk's own cancelled context instead, it goes on and
  returns the error from opening that chunk's empty file path. See
  `Merging.MergeStopsAtCancel` and `Merging.UnfinalizedChunkFailsOpen`.
- Finalized files are named `<tmp>/<index>.ts`.
- `New` derives BaseUrl with `strings.TrimRight`, which treats its second
  argument as a set of characters (a cutset), not as a suffix.

## Model

| member | source | states |
|---|---|---|
| Pkcs7.Pad | pkg/decode/aes.go:45-51 | appends between 1 and blockSize bytes, each equal (mod 256) to the number appended; the result is a positive multiple of blockSize and has the input as prefix |
| Pkcs7.Unpad | pkg/decode/aes.go:34-42 | error exactly on empty input; otherwise a prefix of the input, shorter by the value of the last byte |
| Pkcs7.UnpadPad | pkg/decode/aes.go:34-51 | unpadding the padded data gives the data back for every block size 1..255 |
| Pkcs7.UnpadIgnoresFiller | pkg/decode/aes.go:34-42 | the pad bytes before the last are never checked: any filler followed by its length unpads to the same prefix |
| Pkcs7.PadRoundTripNeedsByteSizedBlocks | pkg/decode/aes.go:45-51 | at block size 256 the byte conversion wraps to 0 and the round trip fails |
| Cbc.Encrypt | pkg/decode/aes.go:66-68 | CBC encryption of whole blocks has the plaintext's length |
| Cbc.Decrypt | pkg/decode/aes.go:27-29 | CBC decryption produces a buffer as long as the ciphertext |
| Cbc.DecryptEncrypt | pkg/decode/aes.go:27-29 | CBC decryption under the same key and IV inverts CBC encryption, for any invertible block cipher |
| Cbc.DecryptBlocks | pkg/decode/aes.go:27-29 | every plaintext block is the deciphered ciphertext block XOR the previous ciphertext block (the IV for block 0) |
| Aes.ChooseIv | pkg/decode/aes.go:21-25 | the IV used is the first block of the key when no IV is given, and otherwise the first block of the given IV |
| Aes.AesDecryptString | pkg/decode/aes.go:10-13 | the string form gives exactly AESDecrypt's result on the strings' bytes: a key-size error exactly for bad key sizes, and otherwise success exactly on non-empty input |
| Aes.AesDecrypt | pkg/decode/aes.go:15-32 | key-size error exactly for keys other than 16/24/32 bytes; otherwise an error exactly on empty input, and else a prefix of the CBC decryption under the chosen IV, shortened by its last byte |
| Aes.EmptyIvMeansKeyPrefix | pkg/decode/aes.go:21-22 | an empty IV decrypts exactly as the key's first block passed as IV |
| Aes.IvTailIgnored | pkg/decode/aes.go:23-27 | only the first 16 bytes of a given IV affect decryption |
| Aes.AesEncrypt | pkg/decode/aes.go:53-70 | error exactly for bad key sizes; otherwise a whole-block output as long as the padded input |
| Aes.EncryptUsesKeyPrefixAsIv | pkg/decode/aes.go:62-68 | the first cipher block is E(P0 XOR key[:16]), so the key prefix is the IV |
| Aes.DecryptEncrypt | pkg/decode/aes_test.go:31-45 | AESDecrypt with no IV recovers the input of AesEncrypt for every valid key and invertible cipher |
| Aes.IvTextUsedVerbatim | dl/downloader.go:303 | an IV attribute written "0x…" yields an IV starting with bytes 0x30 0x78, its characters, not its hex value |
| GoStrings.TrimRight | dl/downloader.go:59 | the result is a prefix, ends outside the cutset, and every removed character is in the cutset |
| GoStrings.TrimRightUnique | dl/downloader.go:59 | any split into a kept part ending outside the cutset and a removed part made of cutset characters is the one TrimRight makes |
| Paths.Base | dl/downloader.go:59 | path.Base is never empty, is "." for the empty path and "/" for a path of slashes only, and contains '/' only when it is "/" |
| Paths.BaseIsLastElement | dl/downloader.go:59 | otherwise path.Base is the last element: the longest slash-free suffix of the path once its trailing slashes are removed |
| Paths.BaseOfFile | dl/downloader.go:59 | the base of "dir/name" is "name" |
| Paths.Clean | pkg/utils/url.go:12 | path.Clean returns a clean path: ".", "/", or elements with no empty, "." or unresolved ".." element; it is rooted exactly when the input is |
| Paths.CleanDropsEmpty | pkg/utils/url.go:12 | a doubled slash cleans like a single one: empty elements are dropped |
| Paths.CleanDropsDot | pkg/utils/url.go:12 | a "." element cleans away |
| Paths.CleanCancelsDotDot | pkg/utils/url.go:12 | "x/name/../y" cleans like "x/y" for any plain element name |
| Paths.CleanLeadingDotDot | pkg/utils/url.go:12 | a leading "name/../" cleans away for any plain element name, in front of any unrooted rest |
| Paths.CleanLeadingDot | pkg/utils/url.go:12 | a leading "./" cleans away in front of any unrooted rest |
| Paths.CleanRootDotDot | pkg/utils/url.go:12 | at the root ".." has nothing to cancel: "/../y" cleans like "/y" and "/.." cleans to "/" |
| Paths.CleanTrailingSlash | pkg/utils/url.go:12 | a trailing slash does not change the cleaned path of a non-empty path |
| Paths.CleanFixedPoints | pkg/utils/url.go:12 | Clean leaves a path unchanged exactly when the path is clean |
| Paths.CleanIdempotent | pkg/utils/url.go:12 | cleaning twice equals cleaning once |
| Paths.JoinSplit | pkg/utils/url.go:12 | joining the '/'-separated elements of a string gives the string back |
| Paths.SplitJoin | pkg/utils/url.go:12 | splitting the join of slash-free elements gives the elements back |
| Paths.Join | pkg/utils/url.go:12 | path.Join of two elements is "" exactly when both are empty, and otherwise the cleaned '/'-join of the non-empty ones |
| Paths.JoinPlainName | pkg/utils/url.go:12 | joining a plain name onto a clean path appends it with one '/'; onto "." gives the name and onto "/" gives "/name" |
| Urls.ResolveUrl | pkg/utils/url.go:8-13 | URLs starting with "https://" or "http://" are returned unchanged; anything else is path-joined onto the base, giving a clean path, or "" exactly when both inputs are empty |
| Urls.PlainSegmentIsAppended | pkg/utils/url.go:8-12 | a plain segment file name resolves to the clean base, a '/', and the name |
| Urls.JoinedUrlIsStable | pkg/utils/url.go:12 | cleaning a join-branch result again changes nothing |
| Urls.UpperCaseSchemeIsJoined | pkg/utils/url.go:9-12 | the prefix test is case-sensitive: "HTTP://x" goes through the join branch |
| Urls.OtherSchemeIsJoined | pkg/utils/url.go:9-12 | "ftp://x" goes through the join branch |
| Urls.HttpsBaseCollapses | pkg/utils/url.go:12 | base "https://host" and "seg.ts" resolve to "https:/host/seg.ts" |
| Chunks.Code | dl/chunk.go:8-16 | status codes lie in -1..3 |
| Chunks.CodeRoundTrip | dl/chunk.go:8-14 | fail, wait, downloading, success and merged have the codes -1..3, one-to-one, so they are pairwise distinct |
| Chunks.ZeroValueIsWait | dl/chunk.go:10 | the zero value of chunkStatus is wait |
| Chunks.NewChunk | dl/downloader.go:221-224 | a chunk built from index and url starts in wait, with no file path, zero retries and no signal |
| Chunks.FinalPath | dl/downloader.go:240 | the finalized name is the scratch directory, a '/', only decimal digits, then ".ts"; `Chunks.FinalPathNamesIndex` shows the digits are the index |
| Chunks.FinalPathNamesIndex | dl/downloader.go:240 | the digits of a finalized name, read in base 10, are the chunk's index, and they start with '0' only for index 0 (no leading zeros, as `%d` prints) |
| Chunks.DecimalValue | dl/downloader.go:240 | the text `%d` prints for an index reads back, in base 10, as that index |
| Chunks.FinalPathInjective | dl/downloader.go:240 | distinct chunk indices give distinct finalized file names `<tmp>/<index>.ts` |
| Downloader.DeriveBaseUrl | dl/downloader.go:58-60 | a given BaseUrl, or an empty M3u8Url, is kept; otherwise the result is a prefix of M3u8Url that is empty or ends in a character outside path.Base(M3u8Url), and every character trimmed is in that base |
| Downloader.BaseUrlIsDirectory | dl/downloader.go:58-60 | for "dir/name" the derived BaseUrl is "dir/" |
| Downloader.BaseUrlOfBareName | dl/downloader.go:58-60 | a URL with no '/' derives the empty BaseUrl |
| Downloader.InitChunk | dl/downloader.go:216-231 | non-nil segments become waiting chunks numbered 0..n-1 in playlist order with their URIs; nil segments use no index; total is n |
| Downloader.Commit | dl/downloader.go:289-331 | a chunk already in success or merged is unchanged; otherwise it ends in success, and it is finalized (file written with the body or its decryption, path set, complete +1, signal fired) exactly when reading, decryption and saving succeed; on failure only the status changes; the body must be decryptable only when a key is set and the temporary file was read back |
| Downloader.DownloadChunk | dl/downloader.go:233-332 | success/merged: nothing changes; finalized file present: success with that path, complete +1, no fetch; failed fetch with retries spent: that error, chunk and files unchanged; failed fetch with retries left: one more retry, enqueued, then the success path; on the success path the chunk is finalized with the body or its decryption exactly when reading, decryption and saving succeed; retries grow by at most 1 per call; the body must be decryptable only on the path that reaches AESDecrypt (`Downloader.DecryptReady`) |
| Downloader.WatcherTimeout | dl/downloader.go:264-273 | a timeout adds exactly one retry and enqueues the chunk unless its signal has fired |
| Downloader.RetryFallsThroughToSuccess | dl/downloader.go:279-296 | a retryable fetch error still finalizes the chunk with the partial body while a retry is queued |
| Downloader.QueuedRetryIsNoOp | dl/downloader.go:233-237 | the queued retry of a fallen-through chunk returns nil and changes nothing |
| Downloader.EncryptedRetryCancels | dl/downloader.go:279-310 | with a key, an empty failed fetch with retries left is enqueued, fails decryption, leaves the chunk in success with no file, and cancels the run |
| Downloader.Apply | dl/downloader.go:150-164 | an event changes only the chunk it names; a downloadChunk error cancels the run and a timeout never does; after the cancellation no further event is modelled |
| Downloader.StartValid | dl/downloader.go:216-231 | the chunks initChunk builds satisfy the run invariant with nothing completed |
| Downloader.ApplyValid | dl/downloader.go:233-332 | every dispatch or timeout keeps the run invariant and never lowers complete or downloadSize |
| Downloader.ApplyAllValid | dl/downloader.go:150-164 | a whole run keeps the invariant: only wait and success occur, complete counts the finalized chunks, their files exist, counters never go down; each event need only be fine for the run it is applied to (`Downloader.RunOk`) |
| Downloader.CancelledRunIsFrozen | dl/downloader.go:150-164 | the model applies no event after the cancellation: the dispatch loop submits nothing more once the run context is done |
| Downloader.ExhaustedRetriesEndRun | dl/downloader.go:279-285 | a fetch failure with the retry budget spent cancels the run and leaves the chunks unchanged, whatever the body; no later event is modelled |
| Downloader.PartialEncryptedBodyEndsRun | dl/downloader.go:279-285 | with a valid key, a five-byte partial body that AESDecrypt could not take still just gives the fetch error, cancels the run and leaves the chunks unchanged, because decryption is never reached |
| Downloader.Progress | dl/downloader.go:339-342 | in a valid run 0 <= complete <= total == number of chunks |
| Downloader.DownloadSize | dl/downloader.go:334-337 | in a valid run the downloaded byte count is non-negative |
| Merging.MergeFrom | dl/downloader.go:188-209 | the output only grows, and a finished merge reports no error |
| Merging.RemoveTree | dl/downloader.go:210-212 | exactly the files at or below the scratch directory are removed |
| Merging.Merge | dl/downloader.go:177-214 | failure to create the output is an error with nothing written; stopping early with no error happens only when a wait saw the cancellation |
| Merging.CancelledSomewhere | dl/downloader.go:188-193 | a merge that stops without error observed a cancellation at some chunk |
| Merging.MergePrefix | dl/downloader.go:188-209 | after k signalled and copied chunks, merge has written exactly their files in order and deleted them |
| Merging.MergeAllChunks | dl/downloader.go:188-213 | with every chunk signalled and copied, the output is the concatenation of the chunks' files in order, with no error |
| Merging.MergeStopsAtCancel | dl/downloader.go:189-191 | cancellation before chunk i returns nil with exactly the files of chunks 0..i-1 written |
| Merging.MergeStopsAtError | dl/downloader.go:188-209 | when chunk i's file is missing (or was removed by an earlier chunk with the same path) merge returns that open error, and when its copy fails that copy error, in both cases with exactly the files of chunks 0..i-1 written |
| Merging.UnfinalizedChunkFailsOpen | dl/downloader.go:195-199 | a chunk left without a file path makes merge fail opening "" if its signal is what the wait observes |
| Merging.MergeAfterDownloads | dl/downloader.go:188-209 | after any sequential run in which every chunk finished, merge writes the files `<tmp>/<i>.ts` in index order, whatever order downloads and retries took |

## Left out

- HTTP client setup, playlist fetch and decoding, key fetch and `mkTmp` (`New`'s client options, `parse`, `requestKey`). These are I/O through the req and m3u8 libraries. The key and the IV text are parameters (`Downloader.Key`).
- Downloader.Apply: events after the cancellation are dropped. In Go, `downloadChunk` never reads the run context and its GET (`dl/downloader.go:275`) carries none, so calls already running in the pool still finalize chunks, count them and write their files after `d.cancel()`; and `retryRunner`'s `select` (`dl/downloader.go:346-349`) may still submit a queued retry, because Go picks at random among ready cases.
- Downloader.CancelledRunIsFrozen: the freeze holds for the model's rule above, not for Go's in-flight calls and late retries.
- Downloader.ExhaustedRetriesEndRun: "unchanged" covers only the events the model keeps; in-flight calls of other chunks may still finalize them in Go.
- merge's deferred `d.cancel()` (`dl/downloader.go:178`), which ends every run and lets `Wait` return, is not modelled: the model has no state after merge.
- The goroutine pool, `retryRunner`, the dispatch goroutine of `Run`, contexts and `Wait`. A run is a sequence of `Dispatch` and `Timeout` events. Any event may name any chunk, which covers first dispatch and retries. The retry queue is recorded but not consumed.
- The AES block primitive (crypto/aes, crypto/cipher). It is an abstract pair of keyed block functions. Only `Cbc.Invertible` is assumed, and only where a round trip is stated.
- The real filesystem. The scratch directory is a path-to-bytes map. The temporary file is not represented: its content is the fetch body, and the deferred `RemoveAll` deletes it. The output file is the `output` bytes of the merge result.
- Downloader.Commit: a save failure writes nothing, although `os.Create` followed by a failed `Write` would leave a partial file.
- Merging.MergeFrom: a failed `io.Copy` appends nothing, although it may have written part of the file.
- The status re-checks at dl/downloader.go:260-262 and 292-294 are unreachable when calls run one at a time: `downloadChunk` has already returned at lines 235-237 for a chunk in success or merged, and nothing between can settle it. So `Downloader.DownloadChunk` has no branch for them. `Downloader.Commit` still takes a settled chunk and returns it unchanged, which is what the re-check under the lock does when another call has finalized the chunk first.
- Downloader.DownloadChunk: `retryTimes` is an unbounded integer. The int32 wrap-around, and the `int32(RetryCount)` truncation in the comparison, are not modelled. Both need more than 2^31 retries or a RetryCount of 2^31 or more.
- The unsynchronised `downloadSize +=` race. The model adds the fetched length once per fetch.
- Downloader.InitChunk: `total` is the number of non-nil segments. The m3u8 library's `Count()` is not part of this model, and for a decoded media playlist it counts exactly those segments.
- Chunks.FinalPath: `filepath.Join(tmp, name)` is modelled as `tmp + "/" + name`. The scratch directory is itself a `filepath.Join` result ending in ".tmp", so it is already clean.
- Paths.Join: only the two-element form that `ResolveURL` uses is modelled. URLs and paths are Dafny strings, while Go works on bytes. Every operation used splits only on the ASCII '/'.
- Aes.AesDecryptString: strings are modelled by their bytes, because a Go string converts to its bytes unchanged.
- Pkcs7.Unpad: slicing past the start in `pkcs7UnPadding` panics in Go; the model excludes that input by precondition (`Pkcs7.CanUnpad`) rather than modelling the panic.
- Aes.AesDecrypt: a non-empty IV shorter than a block is excluded by precondition. `iv[:blockSize]` slices up to the slice's capacity, so in Go such an IV either panics or is zero-padded from spare capacity, depending on the allocation. `CryptBlocks` on a partial block panics, as does the unpadding above. These preconditions are collected in `Aes.DecryptDefined`.
- Downloader.DownloadChunk: a body that reaches AESDecrypt and would make it panic is excluded by precondition (`Downloader.DecryptReady`). The body reaches AESDecrypt only when a key is set, the fetch succeeded or had retries left, and the temporary file was read back. Other bodies are unrestricted, for example a partial body after the retries are spent (`Downloader.PartialEncryptedBodyEndsRun`). `Downloader.ApplyAllValid` excludes only runs in which such a panicking dispatch actually happens (`Downloader.RunOk`).
- pkg/progressbar/bar.go, pkg/utils/size.go, cmd/cli/main.go and dl/config.go. These are terminal UI, floating-point rates, flag plumbing and a plain record. Config fields are parameters (`Downloader.Env`).
- `TestDecode` in pkg/decode/aes_test.go, which reads local files.

=== FILE: aes.dfy ===
/** The segment decryption framing of pkg/decode/aes.go: key-size check,
    IV choice, CBC over the block cipher and PKCS#7 (un)padding. */
module Aes {
  import opened Wrappers
  import Pkcs7
  import opened Cbc

  /** `aes.NewCipher` accepts AES-128, AES-192 and AES-256 keys only. */
  predicate ValidKeySize(n: int) {
    n == 16 || n == 24 || n == 32
  }

  datatype Error = KeySizeError(size: int) | PaddingError(cause: Pkcs7.UnpadError)

  /** The IV actually used: the key's first block when no IV is given,
      otherwise the first block of the IV bytes as they are. */
  function ChooseIv(key: Bytes, iv: Bytes): (chosen: Block)
    requires |key| >= BlockSize
    requires |iv| == 0 || |iv| >= BlockSize
    ensures |iv| == 0 ==> chosen <= key
    ensures |iv| > 0 ==> chosen <= iv
  {
    if |iv| == 0 then key[..BlockSize] else iv[..BlockSize]
  }

  /** What AESDecrypt needs of its inputs for a defined result: an IV that
      is empty or at least a block long (a shorter one is sliced up to its
      capacity, so it panics or picks up zero bytes depending on how it was
      allocated), whole blocks (`CryptBlocks` panics otherwise) and a last
      plaintext byte no larger than the plaintext (`pkcs7UnPadding`). */
  predicate DecryptDefined(c: BlockCipher, crypt: Bytes, key: Bytes, iv: Bytes) {
    ValidKeySize(|key|) ==>
      && (|iv| == 0 || |iv| >= BlockSize)
      && |crypt| % BlockSize == 0
      && Pkcs7.CanUnpad(Cbc.Decrypt(c, key, ChooseIv(key, iv), crypt))
  }

  /** AESDecrypt: the CBC decryption of `crypt` under the chosen IV, with its
      padding stripped; a bad key size or an empty input is an error. */
  function AesDecrypt(c: BlockCipher, crypt: Bytes, key: Bytes, iv: Bytes): (r: Result<Bytes, Error>)
    requires DecryptDefined(c, crypt, key, iv)
    ensures !ValidKeySize(|key|) <==> r == Err(KeySizeError(|key|))
    ensures ValidKeySize(|key|) ==> (r.Ok? <==> |crypt| > 0)
    ensures r.Ok? ==> r.value <= Cbc.Decrypt(c, key, ChooseIv(key, iv), crypt)
    ensures r.Ok? ==>
      |r.value| == |crypt| - Cbc.Decrypt(c, key, ChooseIv(key, iv), crypt)[|crypt| - 1] as int
  {
    if !ValidKeySize(|key|) then Err(KeySizeError(|key|))
    else
      var plain := Cbc.Decrypt(c, key, ChooseIv(key, iv), crypt);
      match Pkcs7.Unpad(plain)
      case Ok(data) => Ok(data)
      case Err(e) => Err(PaddingError(e))
  }

  /** AESDecryptString: Go strings are byte strings, so the conversions
      `[]byte(cryptText)` and friends hand the bytes over unchanged. */
  function AesDecryptString(c: BlockCipher, cryptText: Bytes, keyText: Bytes, ivText: Bytes): (r: Result<Bytes, Error>)
    requires DecryptDefined(c, cryptText, keyText, ivText)
    ensures r == AesDecrypt(c, cryptText, keyText, ivText)
    ensures !ValidKeySize(|keyText|) <==> r == Err(KeySizeError(|keyText|))
    ensures ValidKeySize(|keyText|) ==> (r.Ok? <==> |cryptText| > 0)
  {
    AesDecrypt(c, cryptText, keyText, ivText)
  }

  /** AesEncrypt: pad to whole blocks and CBC-encrypt with the key's first
      block as IV. */
  function AesEncrypt(c: BlockCipher, data: Bytes, key: Bytes): (r: Result<Bytes, Error>)
    ensures !ValidKeySize(|key|) <==> r.Err?
    ensures r.Ok? ==> |r.value| == |Pkcs7.Pad(data, BlockSize)|
    ensures r.Ok? ==> |r.value| % BlockSize == 0 && |data| < |r.value| <= |data| + BlockSize
  {
    if !ValidKeySize(|key|) then Err(KeySizeError(|key|))
    else Ok(Cbc.Encrypt(c, key, key[..BlockSize], Pkcs7.Pad(data, BlockSize)))
  }

  /** The first cipher block of AesEncrypt is E(P_0 xor key[:16]): the key
      prefix is the IV. */
  lemma EncryptUsesKeyPrefixAsIv(c: BlockCipher, data: Bytes, key: Bytes)
    requires ValidKeySize(|key|)
    ensures AesEncrypt(c, data, key).Ok?
    ensures AesEncrypt(c, data, key).value[..BlockSize]
         == c.encrypt(key, XorBlock(Pkcs7.Pad(data, BlockSize)[..BlockSize], key[..BlockSize]))
  {
  }

  /** With no IV, decryption uses the key prefix, exactly as if that prefix
      had been passed as the IV. */
  lemma EmptyIvMeansKeyPrefix(c: BlockCipher, crypt: Bytes, key: Bytes)
    requires ValidKeySize(|key|)
    requires DecryptDefined(c, crypt, key, [])
    ensures DecryptDefined(c, crypt, key, key[..BlockSize])
    ensures AesDecrypt(c, crypt, key, []) == AesDecrypt(c, crypt, key, key[..BlockSize])
  {
    assert ChooseIv(key, []) == ChooseIv(key, key[..BlockSize]);
  }

  /** Only the first block of a given IV matters; the rest is ignored. */
  lemma IvTailIgnored(c: BlockCipher, crypt: Bytes, key: Bytes, iv: Bytes)
    requires ValidKeySize(|key|)
    requires |iv| >= BlockSize
    requires DecryptDefined(c, crypt, key, iv)
    ensures DecryptDefined(c, crypt, key, iv[..BlockSize])
    ensures AesDecrypt(c, crypt, key, iv) == AesDecrypt(c, crypt, key, iv[..BlockSize])
  {
    assert ChooseIv(key, iv) == ChooseIv(key, iv[..BlockSize]);
  }

  /** The round trip of pkg/decode/aes_test.go: what AesEncrypt produces,
      AESDecrypt with no IV turns back into the input. */
  lemma {:induction false} DecryptEncrypt(c: BlockCipher, data: Bytes, key: Bytes)
    requires Invertible(c)
    requires ValidKeySize(|key|)
    ensures AesEncrypt(c, data, key).Ok?
    ensures DecryptDefined(c, AesEncrypt(c, data, key).value, key, [])
    ensures AesDecrypt(c, AesEncrypt(c, data, key).value, key, []) == Ok(data)
  {
    var padded := Pkcs7.Pad(data, BlockSize);
    var iv: Block := key[..BlockSize];
    var crypt := Cbc.Encrypt(c, key, iv, padded);
    Cbc.DecryptEncrypt(c, key, iv, padded);
    assert ChooseIv(key, []) == iv;
    Pkcs7.UnpadPad(data, BlockSize);
  }

  /** A playlist IV attribute is text such as "0x62dafe649b36307e2a4caf5d30d18490",
      and its bytes are used as they are: the IV starts with the characters
      '0' and 'x' rather than with the hexadecimal value 0x62, 0xda. */
  lemma IvTextUsedVerbatim(key: Bytes, ivText: Bytes)
    requires |key| >= BlockSize
    requires |ivText| >= BlockSize && ivText[0] == '0' as byte && ivText[1] == 'x' as byte
    ensures ChooseIv(key, ivText)[0] == 0x30 && ChooseIv(key, ivText)[1] == 0x78
  {
  }
}

=== FILE: cbc.dfy ===
/** Cipher block chaining as in section 6.2 of NIST SP 800-38A, over a block
    cipher that is only known to be invertible. AES itself is not modelled:
    the cipher is a pair of keyed block functions supplied by the caller. */
module Cbc {
  import opened Wrappers

  /** AES works on 16-byte blocks whatever the key length. */
  const BlockSize: nat := 16

  type Block = b: Bytes | |b| == BlockSize witness seq(BlockSize, _ => 0 as byte)

  /** A keyed block cipher: `encrypt` and `decrypt` map one block to one block. */
  datatype BlockCipher = BlockCipher(encrypt: (Bytes, Block) -> Block, decrypt: (Bytes, Block) -> Block)

  /** Decryption undoes encryption under the same key. */
  ghost predicate Invertible(c: BlockCipher) {
    forall key: Bytes, b: Block :: c.decrypt(key, c.encrypt(key, b)) == b
  }

  function XorBlock(a: Block, b: Block): (r: Block)
    ensures forall i | 0 <= i < BlockSize :: r[i] == a[i] ^ b[i]
  {
    seq(BlockSize, i requires 0 <= i < BlockSize => a[i] ^ b[i])
  }

  lemma XorCancels(a: Block, b: Block)
    ensures XorBlock(XorBlock(a, b), b) == a
  {
    var r := XorBlock(XorBlock(a, b), b);
    forall i | 0 <= i < BlockSize
      ensures r[i] == a[i]
    {
      assert (a[i] ^ b[i]) ^ b[i] == a[i];
    }
  }

  /** The `j`-th block of a whole-block buffer. */
  function BlockAt(s: Bytes, j: nat): Block
    requires (j + 1) * BlockSize <= |s|
  {
    s[j * BlockSize .. (j + 1) * BlockSize]
  }

  /** CBC encryption: each plaintext block is XORed with the previous
      ciphertext block (the IV for the first) before it is enciphered. */
  function Encrypt(c: BlockCipher, key: Bytes, iv: Block, plain: Bytes): (crypt: Bytes)
    requires |plain| % BlockSize == 0
    ensures |crypt| == |plain|
    decreases |plain|
  {
    if |plain| == 0 then []
    else
      var out := c.encrypt(key, XorBlock(plain[..BlockSize], iv));
      out + Encrypt(c, key, out, plain[BlockSize..])
  }

  /** CBC decryption, one `CryptBlocks` call of a decrypter: each deciphered
      block is XORed with the previous ciphertext block (the IV for the first). */
  function Decrypt(c: BlockCipher, key: Bytes, iv: Block, crypt: Bytes): (plain: Bytes)
    requires |crypt| % BlockSize == 0
    ensures |plain| == |crypt|
    decreases |crypt|
  {
    if |crypt| == 0 then []
    else
      var block: Block := crypt[..BlockSize];
      XorBlock(c.decrypt(key, block), iv) + Decrypt(c, key, block, crypt[BlockSize..])
  }

  /** Decryption under the same key and IV recovers the plaintext. */
  lemma {:induction false} DecryptEncrypt(c: BlockCipher, key: Bytes, iv: Block, plain: Bytes)
    requires Invertible(c)
    requires |plain| % BlockSize == 0
    ensures Decrypt(c, key, iv, Encrypt(c, key, iv, plain)) == plain
    decreases |plain|
  {
    if |plain| > 0 {
      var head: Block := plain[..BlockSize];
      var out := c.encrypt(key, XorBlock(head, iv));
      var rest := Encrypt(c, key, out, plain[BlockSize..]);
      var crypt: Bytes := out + rest;
      assert crypt[..BlockSize] == out;
      assert crypt[BlockSize..] == rest;
      XorCancels(head, iv);
      DecryptEncrypt(c, key, out, plain[BlockSize..]);
      assert plain == head + plain[BlockSize..];
    }
  }

  /** The block formula of NIST SP 800-38A section 6.2:
      P_j = CIPH^-1(C_j) xor C_(j-1), with C_(-1) the IV. */
  lemma {:induction false} DecryptBlocks(c: BlockCipher, key: Bytes, iv: Block, crypt: Bytes, j: nat)
    requires |crypt| % BlockSize == 0
    requires (j + 1) * BlockSize <= |crypt|
    ensures BlockAt(Decrypt(c, key, iv, crypt), j)
         == XorBlock(c.decrypt(key, BlockAt(crypt, j)), if j == 0 then iv else BlockAt(crypt, j - 1))
    decreases j
  {
    var block: Block := crypt[..BlockSize];
    var tail := crypt[BlockSize..];
    var first := XorBlock(c.decrypt(key, block), iv);
    var plain := Decrypt(c, key, iv, crypt);
    assert plain == first + Decrypt(c, key, block, tail);
    if j == 0 {
      assert BlockAt(plain, 0) == first;
      assert BlockAt(crypt, 0) == block;
    } else {
      DecryptBlocks(c, key, block, tail, j - 1);
      assert BlockAt(plain, j) == BlockAt(Decrypt(c, key, block, tail), j - 1);
      assert BlockAt(crypt, j) == BlockAt(tail, j - 1);
      if j >= 2 {
        assert BlockAt(crypt, j - 1) == BlockAt(tail, j - 2);
      } else {
        assert BlockAt(crypt, 0) == block;
      }
    }
  }
}

=== FILE: chunk.dfy ===
/** The per-segment record of dl/chunk.go and the name of its finalized file. */
module Chunks {
  import opened Wrappers

  /** chunkStatus; the Go constants are consecutive from fail = -1. */
  datatype Status = Fail | Wait | Downloading | Success | Merged

  function Code(s: Status): (code: int)
    ensures -1 <= code <= 3
  {
    match s
    case Fail => -1
    case Wait => 0
    case Downloading => 1
    case Success => 2
    case Merged => 3
  }

  function FromCode(code: int): (s: Option<Status>)
    ensures s.Some? <==> -1 <= code <= 3
  {
    if code == -1 then Some(Fail)
    else if code == 0 then Some(Wait)
    else if code == 1 then Some(Downloading)
    else if code == 2 then Some(Success)
    else if code == 3 then Some(Merged)
    else None
  }

  /** The codes name the statuses one-to-one, so they are pairwise distinct. */
  lemma CodeRoundTrip(s: Status, code: int)
    ensures FromCode(Code(s)) == Some(s)
    ensures FromCode(code).Some? ==> Code(FromCode(code).value) == code
  {
  }

  /** Go's zero value for chunkStatus is the code of wait. */
  lemma ZeroValueIsWait()
    ensures FromCode(0) == Some(Wait)
  {
  }

  /** "Already downloaded": the states downloadChunk and merge never redo. */
  predicate Settled(s: Status) {
    s == Success || s == Merged
  }

  /** A chunk: `signalled` stands for the cancellation of its own context,
      the completion signal merge waits on. Its lock and context handle are
      not data and are not modelled. */
  datatype Chunk = Chunk(
    index: nat,
    status: Status,
    filepath: string,
    url: string,
    retryTimes: int,
    signalled: bool)

  /** A chunk literal with only index and url, every other field zero. */
  function NewChunk(index: nat, url: string): (c: Chunk)
    ensures c.index == index && c.url == url
    ensures Some(c.status) == FromCode(0)
    ensures c.filepath == "" && c.retryTimes == 0 && !c.signalled
  {
    Chunk(index, Wait, "", url, 0, false)
  }

  function Digit(d: nat): (ch: char)
    requires d < 10
    ensures '0' <= ch <= '9' && ch as int - '0' as int == d
  {
    "0123456789"[d]
  }

  /** The decimal text of `n`, as `fmt.Sprintf("%d", n)`. */
  function Decimal(n: nat): (s: string)
    ensures |s| >= 1
    ensures n < 10 <==> |s| == 1
    ensures forall k | 0 <= k < |s| :: '0' <= s[k] <= '9'
    // no leading zero: only zero itself starts with '0'
    ensures s[0] == '0' <==> n == 0
    decreases n
  {
    if n < 10 then [Digit(n)] else Decimal(n / 10) + [Digit(n % 10)]
  }

  /** The number a string of decimal digits denotes, read left to right. */
  function DigitsValue(s: string): int
    decreases |s|
  {
    if |s| == 0 then 0 else DigitsValue(s[..|s| - 1]) * 10 + (s[|s| - 1] as int - '0' as int)
  }

  /** `%d` prints the number itself: its digits read back give `n`. */
  lemma {:induction false} DecimalValue(n: nat)
    ensures DigitsValue(Decimal(n)) == n
    decreases n
  {
    var s := Decimal(n);
    if n < 10 {
      assert s[..0] == "";
    } else {
      assert s[..|s| - 1] == Decimal(n / 10);
      DecimalValue(n / 10);
    }
  }

  /** Distinct numbers print differently. */
  lemma {:induction false} DecimalInjective(m: nat, n: nat)
    requires Decimal(m) == Decimal(n)
    ensures m == n
    decreases m
  {
    var s := Decimal(m);
    if m < 10 {
      assert Digit(m) == s[0] == Digit(n);
    } else {
      assert n >= 10;
      assert Digit(m % 10) == s[|s| - 1] == Digit(n % 10);
      assert Decimal(m / 10) == s[..|s| - 1] == Decimal(n / 10);
      DecimalInjective(m / 10, n / 10);
    }
  }

  /** `filepath.Join(tmp, fmt.Sprintf("%d.ts", index))`. The scratch directory
      is itself the result of filepath.Join and ends in ".tmp", so it is
      already clean and joining only inserts the separator. */
  function FinalPath(tmp: string, index: nat): (p: string)
    ensures |p| >= |tmp| + 5
    ensures p[..|tmp| + 1] == tmp + "/" && p[|p| - 3..] == ".ts"
    ensures forall k | |tmp| < k < |p| - 3 :: '0' <= p[k] <= '9'
  {
    tmp + "/" + Decimal(index) + ".ts"
  }

  /** The digits of a chunk's finalized name spell out its index. */
  lemma FinalPathNamesIndex(tmp: string, i: nat)
    ensures var p := FinalPath(tmp, i);
      && p[..|tmp| + 1] == tmp + "/" && p[|p| - 3..] == ".ts"
      && DigitsValue(p[|tmp| + 1 .. |p| - 3]) == i
      && (p[|tmp| + 1] == '0' <==> i == 0)
  {
    var p := FinalPath(tmp, i);
    assert p[|tmp| + 1 .. |p| - 3] == Decimal(i);
    DecimalValue(i);
  }

  /** Different chunks of one run never share a finalized file. */
  lemma FinalPathInjective(tmp: string, i: nat, j: nat)
    requires FinalPath(tmp, i) == FinalPath(tmp, j)
    ensures i == j
  {
    var p := FinalPath(tmp, i);
    var di, dj := Decimal(i), Decimal(j);
    assert |di| == |dj|;
    assert p[|tmp| + 1 .. |p| - 3] == di;
    assert FinalPath(tmp, j)[|tmp| + 1 .. |p| - 3] == dj;
    DecimalInjective(i, j);
  }
}

=== FILE: downloader.dfy ===
/** The sequential core of dl/downloader.go: BaseUrl derivation in New, the
    chunk list of initChunk, downloadChunk as a state transition over one
    chunk and the shared counters, and the counters read by Progress and
    DownloadSize. Goroutines, the pool and the retry channel are replaced by
    an explicit sequence of events applied one at a time. */
module Downloader {
  import opened Wrappers
  import opened Chunks
  import Aes
  import Cbc
  import GoStrings
  import Paths

  // ---------------------------------------------------------------- New

  /** New: a missing BaseUrl is derived from M3u8Url with strings.TrimRight,
      whose second argument is a cutset, using the URL's last element. */
  function DeriveBaseUrl(baseUrl: string, m3u8Url: string): (r: string)
    ensures baseUrl != "" || m3u8Url == "" ==> r == baseUrl
    ensures baseUrl == "" && m3u8Url != "" ==>
      && r <= m3u8Url
      && (r == "" || r[|r| - 1] !in Paths.Base(m3u8Url))
      && forall i | |r| <= i < |m3u8Url| :: m3u8Url[i] in Paths.Base(m3u8Url)
  {
    if baseUrl == "" && m3u8Url != "" then GoStrings.TrimRight(m3u8Url, Paths.Base(m3u8Url))
    else baseUrl
  }

  /** For a URL "dir/name" the cutset trim stops at the last '/', so the
      derived base is the URL's directory with its trailing slash. */
  lemma BaseUrlIsDirectory(dir: string, name: string)
    requires |dir| > 0 && dir[|dir| - 1] == '/'
    requires name != "" && '/' !in name
    ensures DeriveBaseUrl("", dir + name) == dir
  {
    Paths.BaseOfFile(dir, name);
    forall i | 0 <= i < |name|
      ensures name[i] in name
    {
    }
    GoStrings.TrimRightUnique(dir, name, name);
  }

  /** A URL without any '/' is its own last element and trims to nothing. */
  lemma BaseUrlOfBareName(name: string)
    requires name != "" && '/' !in name
    ensures DeriveBaseUrl("", name) == ""
  {
    Paths.BaseOfBareName(name);
    GoStrings.TrimOwnCutset(name);
  }

  // ---------------------------------------------------------- initChunk

  /** The playlist's segment URIs in order, skipping nil segments. */
  function NonNil(segments: seq<Option<string>>): (uris: seq<string>)
    ensures |uris| <= |segments|
    decreases |segments|
  {
    if |segments| == 0 then []
    else
      var last := segments[|segments| - 1];
      NonNil(segments[..|segments| - 1]) + (if last.Some? then [last.value] else [])
  }

  /** initChunk: one waiting chunk per non-nil segment, numbered 0..n-1 in
      playlist order; `total` is the playlist's segment count, which for a
      decoded media playlist is the number of non-nil segments. */
  method InitChunk(segments: seq<Option<string>>) returns (chunks: seq<Chunk>, total: nat)
    ensures |chunks| == total == |NonNil(segments)|
    ensures forall i | 0 <= i < |chunks| :: chunks[i] == NewChunk(i, NonNil(segments)[i])
  {
    chunks := [];
    var idx := 0;
    var k := 0;
    while k < |segments|
      invariant 0 <= k <= |segments|
      invariant idx == |chunks| == |NonNil(segments[..k])|
      invariant forall i | 0 <= i < |chunks| :: chunks[i] == NewChunk(i, NonNil(segments[..k])[i])
    {
      assert segments[..k + 1][..k] == segments[..k];
      if segments[k].Some? {
        chunks := chunks + [NewChunk(idx, segments[k].value)];
        idx := idx + 1;
      }
      k := k + 1;
    }
    assert segments[..k] == segments;
    total := idx;
  }

  // ------------------------------------------------------- downloadChunk

  /** The key fetched once per run, and the raw bytes of the playlist's IV
      attribute text (`[]byte(d.m3u8key.IV)`), never hex-decoded. */
  datatype Key = Key(bytes: Bytes, iv: Bytes)

  /** Read-only configuration of a run. */
  datatype Env = Env(tmp: string, retryCount: int, key: Option<Key>, cipher: Cbc.BlockCipher)

  /** State shared by all chunks: the `complete` and `downloadSize` counters,
      the scratch directory as a path-to-bytes map, and the retry channel as
      a queue of chunk indices. `fetches` counts calls to the HTTP client's
      Get (which may itself resend a request); it is an observation, not a
      field of the program. */
  datatype Shared = Shared(
    complete: int,
    downloadSize: int,
    fetches: nat,
    files: map<string, Bytes>,
    retryQueue: seq<nat>)

  /** What the HTTP GET wrote into the temporary file, and whether it
      reported success; a failed GET may have written part of the body. */
  datatype Fetch = Fetch(body: Bytes, ok: bool)

  /** Whether each filesystem call succeeds: CreateTemp, ReadFile of the
      temporary file, and the final Create+Write or Rename. */
  datatype FileOps = FileOps(createTemp: bool, readTemp: bool, save: bool)

  datatype Error = CreateTempError | FetchError | ReadError | DecryptError(cause: Aes.Error) | SaveError

  datatype Step = Step(chunk: Chunk, shared: Shared, err: Option<Error>)

  /** AESDecrypt must not panic on what the fetch wrote. */
  predicate DecryptSafe(env: Env, body: Bytes) {
    env.key.Some? ==> Aes.DecryptDefined(env.cipher, body, env.key.value.bytes, env.key.value.iv)
  }

  /** The body reaches AESDecrypt only on the success path (the fetch
      succeeded, or failed with retries left) and only once the temporary
      file has been read back; only there must decryption not panic. */
  predicate DecryptReady(env: Env, c: Chunk, sh: Shared, fetch: Fetch, ops: FileOps) {
    Fetches(env, c, sh, ops) && (fetch.ok || c.retryTimes < env.retryCount) && ops.readTemp ==>
      DecryptSafe(env, fetch.body)
  }

  /** What ends up in the finalized file: the body itself, or its decryption. */
  function Artifact(env: Env, body: Bytes): Option<Bytes>
    requires DecryptSafe(env, body)
  {
    match env.key
    case None => Some(body)
    case Some(k) =>
      match Aes.AesDecrypt(env.cipher, body, k.bytes, k.iv)
      case Ok(plain) => Some(plain)
      case Err(_) => None
  }

  /** Lines 289-331 of downloadChunk, run under the chunk's lock. `c` is the
      chunk as it is when the lock is taken, which a concurrent attempt may
      already have finalized. The status becomes success before decryption,
      so a decrypt or save failure leaves a chunk in success with no file
      path and no completion signal. */
  function Commit(env: Env, c: Chunk, sh: Shared, body: Bytes, ops: FileOps): (s: Step)
    requires !Settled(c.status) && ops.readTemp ==> DecryptSafe(env, body)
    ensures s.chunk.index == c.index && s.chunk.url == c.url && s.chunk.retryTimes == c.retryTimes
    ensures s.shared.fetches == sh.fetches && s.shared.downloadSize == sh.downloadSize
    ensures s.shared.retryQueue == sh.retryQueue
    ensures Settled(c.status) ==> s == Step(c, sh, None)
    ensures !Settled(c.status) ==> s.chunk.status == Success
    ensures !Settled(c.status) ==>
      (s.err.None? <==> ops.save && (env.key.Some? ==> ops.readTemp) && Artifact(env, body).Some?)
    ensures !Settled(c.status) && s.err.None? ==>
      && s.chunk.filepath == FinalPath(env.tmp, c.index)
      && s.chunk.signalled
      && s.shared.complete == sh.complete + 1
      && (env.key.Some? ==> ops.readTemp)
      && s.shared.files == sh.files[FinalPath(env.tmp, c.index) := Artifact(env, body).value]
    ensures !Settled(c.status) && s.err.Some? ==>
      s.chunk == c.(status := Success) && s.shared == sh
  {
    if Settled(c.status) then Step(c, sh, None)
    else
      var marked := c.(status := Success);
      var final := FinalPath(env.tmp, c.index);
      match env.key
      case None =>
        if ops.save then Finalize(marked, sh, final, body) else Step(marked, sh, Some(SaveError))
      case Some(k) =>
        if !ops.readTemp then Step(marked, sh, Some(ReadError))
        else
          match Aes.AesDecrypt(env.cipher, body, k.bytes, k.iv)
          case Err(e) => Step(marked, sh, Some(DecryptError(e)))
          case Ok(plain) =>
            if ops.save then Finalize(marked, sh, final, plain) else Step(marked, sh, Some(SaveError))
  }

  /** Record the finalized file, count the chunk complete and fire its signal. */
  function Finalize(c: Chunk, sh: Shared, final: string, content: Bytes): Step {
    Step(
      c.(filepath := final, signalled := true),
      sh.(complete := sh.complete + 1, files := sh.files[final := content]),
      None)
  }

  /** The branch downloadChunk takes once it is past the resume check and
      has a temporary file: it issues a fetch. */
  predicate Fetches(env: Env, c: Chunk, sh: Shared, ops: FileOps) {
    !Settled(c.status) && FinalPath(env.tmp, c.index) !in sh.files && ops.createTemp
  }

  /** downloadChunk, run start to finish without interference. After a
      failed fetch with retries left the chunk is enqueued and control falls
      through into the success path, which finalizes whatever was written. */
  function DownloadChunk(env: Env, c: Chunk, sh: Shared, fetch: Fetch, ops: FileOps): (s: Step)
    requires DecryptReady(env, c, sh, fetch, ops)
    ensures s.chunk.index == c.index && s.chunk.url == c.url
    ensures s.chunk.retryTimes == c.retryTimes || s.chunk.retryTimes == c.retryTimes + 1
    ensures s.chunk.status == c.status || s.chunk.status == Success
    ensures Settled(c.status) ==> s == Step(c, sh, None)
    // resuming from a finalized file of an earlier run: no fetch
    ensures !Settled(c.status) && FinalPath(env.tmp, c.index) in sh.files ==>
      && s.err.None?
      && s.chunk == c.(status := Success, filepath := FinalPath(env.tmp, c.index), signalled := true)
      && s.shared == sh.(complete := sh.complete + 1)
    ensures !Fetches(env, c, sh, ops) ==> s.shared.fetches == sh.fetches
    ensures Fetches(env, c, sh, ops) ==>
      s.shared.fetches == sh.fetches + 1 && s.shared.downloadSize == sh.downloadSize + |fetch.body|
    // a failed fetch with the retry budget spent
    ensures Fetches(env, c, sh, ops) && !fetch.ok && c.retryTimes >= env.retryCount ==>
      && s.err == Some(FetchError)
      && s.chunk == c
      && s.shared.complete == sh.complete && s.shared.files == sh.files
      && s.shared.retryQueue == sh.retryQueue
    // a failed fetch with retries left: one more retry, enqueued, then on as if it had succeeded
    ensures Fetches(env, c, sh, ops) && !fetch.ok && c.retryTimes < env.retryCount ==>
      && s.chunk.retryTimes == c.retryTimes + 1
      && s.shared.retryQueue == sh.retryQueue + [c.index]
    ensures Fetches(env, c, sh, ops) && fetch.ok ==>
      s.chunk.retryTimes == c.retryTimes && s.shared.retryQueue == sh.retryQueue
    // the success path, which finalizes exactly when reading, decryption and saving succeed
    ensures Fetches(env, c, sh, ops) && (fetch.ok || c.retryTimes < env.retryCount) ==>
      (s.err.None? <==> ops.save && (env.key.Some? ==> ops.readTemp) && Artifact(env, fetch.body).Some?)
    ensures Fetches(env, c, sh, ops) && (fetch.ok || c.retryTimes < env.retryCount) ==>
      && s.chunk.status == Success
      && (s.err.None? ==>
            && s.chunk.signalled
            && s.chunk.filepath == FinalPath(env.tmp, c.index)
            && s.shared.complete == sh.complete + 1
            && (env.key.Some? ==> ops.readTemp)
            && Artifact(env, fetch.body).Some?
            && s.shared.files == sh.files[FinalPath(env.tmp, c.index) := Artifact(env, fetch.body).value])
      && (s.err.Some? ==>
            s.chunk.signalled == c.signalled && s.chunk.filepath == c.filepath && s.shared.complete == sh.complete && s.shared.files == sh.files)
    // no temporary file: nothing happens but the error
    ensures !Settled(c.status) && FinalPath(env.tmp, c.index) !in sh.files && !ops.createTemp ==>
      s == Step(c, sh, Some(CreateTempError))
  {
    if Settled(c.status) then Step(c, sh, None)
    else
      var final := FinalPath(env.tmp, c.index);
      if final in sh.files then
        Step(c.(status := Success, signalled := true, filepath := final), sh.(complete := sh.complete + 1), None)
      else if !ops.createTemp then Step(c, sh, Some(CreateTempError))
      else
        var fetched := sh.(fetches := sh.fetches + 1, downloadSize := sh.downloadSize + |fetch.body|);
        if fetch.ok then Commit(env, c, fetched, fetch.body, ops)
        else if c.retryTimes < env.retryCount then
          Commit(env, c.(retryTimes := c.retryTimes + 1),
                 fetched.(retryQueue := fetched.retryQueue + [c.index]), fetch.body, ops)
        else Step(c, fetched, Some(FetchError))
  }

  /** The per-chunk timeout watcher winning its race: one more retry and the
      chunk is enqueued. A chunk whose signal has fired is left alone. */
  function WatcherTimeout(c: Chunk, sh: Shared): (s: Step)
    ensures s.err.None?
    ensures c.signalled ==> s.chunk == c && s.shared == sh
    ensures !c.signalled ==>
      && s.chunk == c.(retryTimes := c.retryTimes + 1)
      && s.shared == sh.(retryQueue := sh.retryQueue + [c.index])
  {
    if c.signalled then Step(c, sh, None)
    else Step(c.(retryTimes := c.retryTimes + 1), sh.(retryQueue := sh.retryQueue + [c.index]), None)
  }

  /** A retryable fetch error finalizes the chunk anyway: with the files
      writable and no key, the chunk ends in success with its finalized file
      holding the partial body, while a retry sits in the queue. */
  lemma RetryFallsThroughToSuccess(env: Env, c: Chunk, sh: Shared, partial: Bytes)
    requires env.key.None?
    requires !Settled(c.status) && FinalPath(env.tmp, c.index) !in sh.files
    requires c.retryTimes < env.retryCount
    ensures var s := DownloadChunk(env, c, sh, Fetch(partial, false), FileOps(true, true, true));
      && s.err.None? && s.chunk.status == Success && s.chunk.signalled
      && s.shared.files[FinalPath(env.tmp, c.index)] == partial
      && s.shared.retryQueue == sh.retryQueue + [c.index]
  {
  }

  /** The retry that the fall-through enqueued does nothing: the chunk is
      already in success. */
  lemma QueuedRetryIsNoOp(env: Env, c: Chunk, sh: Shared, fetch: Fetch, ops: FileOps)
    requires env.key.None?
    requires !Settled(c.status) && FinalPath(env.tmp, c.index) !in sh.files
    requires c.retryTimes < env.retryCount
    ensures var s := DownloadChunk(env, c, sh, Fetch([], false), FileOps(true, true, true));
      DownloadChunk(env, s.chunk, s.shared, fetch, ops) == Step(s.chunk, s.shared, None)
  {
  }

  // ------------------------------------------------ the run, step by step

  /** One thing that can happen to a run: a pool worker executes
      downloadChunk on a chunk (first dispatch or retry), or a chunk's
      timeout watcher fires. */
  datatype Event =
    | Dispatch(index: nat, fetch: Fetch, ops: FileOps)
    | Timeout(index: nat)

  /** The downloader's mutable state: its chunks, the playlist count, the
      shared state and whether the run context has been cancelled. */
  datatype Run = Run(chunks: seq<Chunk>, total: nat, shared: Shared, cancelled: bool)

  function CountSignalled(chunks: seq<Chunk>): (n: nat)
    ensures n <= |chunks|
    decreases |chunks|
  {
    if |chunks| == 0 then 0
    else CountSignalled(chunks[..|chunks| - 1]) + (if chunks[|chunks| - 1].signalled then 1 else 0)
  }

  lemma {:induction false} CountSignalledUpdate(chunks: seq<Chunk>, i: nat, c: Chunk)
    requires i < |chunks|
    ensures CountSignalled(chunks[i := c])
         == CountSignalled(chunks) - (if chunks[i].signalled then 1 else 0) + (if c.signalled then 1 else 0)
    decreases |chunks|
  {
    var last := |chunks| - 1;
    var updated := chunks[i := c];
    if i == last {
      assert updated[..last] == chunks[..last];
    } else {
      assert updated[..last] == chunks[..last][i := c];
      CountSignalledUpdate(chunks[..last], i, c);
    }
  }

  /** A chunk in a reachable state: only wait and success ever occur, and
      a file path is recorded exactly when the signal has fired. */
  predicate ChunkOk(tmp: string, c: Chunk, i: nat) {
    && c.index == i
    && (c.status == Wait || c.status == Success)
    && c.retryTimes >= 0
    && (c.signalled ==> c.status == Success)
    && c.filepath == (if c.signalled then FinalPath(tmp, i) else "")
  }

  /** The run invariant: well-formed chunks, `complete` counts the fired
      signals, every fired chunk's finalized file exists, and the queue
      names real chunks. */
  ghost predicate Valid(env: Env, run: Run) {
    && run.total == |run.chunks|
    && (forall i | 0 <= i < |run.chunks| :: ChunkOk(env.tmp, run.chunks[i], i))
    && run.shared.complete == CountSignalled(run.chunks)
    && (forall i | 0 <= i < |run.chunks| && run.chunks[i].signalled ::
          FinalPath(env.tmp, i) in run.shared.files)
    && run.shared.downloadSize >= 0
    && (forall k | 0 <= k < |run.shared.retryQueue| :: run.shared.retryQueue[k] < |run.chunks|)
  }

  /** Every event of the sequence names a real chunk. */
  predicate InRange(n: nat, events: seq<Event>) {
    forall k | 0 <= k < |events| :: events[k].index < n
  }

  /** What `Apply` needs of one event: a real chunk, and a dispatch that
      reaches AESDecrypt must not make it panic. */
  predicate EventOk(env: Env, run: Run, e: Event) {
    && e.index < |run.chunks|
    && (!run.cancelled && e.Dispatch? ==> DecryptReady(env, run.chunks[e.index], run.shared, e.fetch, e.ops))
  }

  /** Each event is fine for the run as it stands when that event happens. */
  predicate RunOk(env: Env, run: Run, events: seq<Event>)
    decreases |events|
  {
    |events| == 0 || (EventOk(env, run, events[0]) && RunOk(env, Apply(env, run, events[0]), events[1..]))
  }

  /** One event. A downloadChunk error cancels the run, and once the run is
      cancelled nothing more is dispatched and no watcher fires. */
  function Apply(env: Env, run: Run, e: Event): (next: Run)
    requires EventOk(env, run, e)
    ensures |next.chunks| == |run.chunks| && next.total == run.total
    ensures run.cancelled ==> next == run
    ensures forall j | 0 <= j < |run.chunks| && j != e.index :: next.chunks[j] == run.chunks[j]
    ensures !run.cancelled && e.Timeout? ==> !next.cancelled
    ensures !run.cancelled && e.Dispatch? ==>
      next.cancelled == DownloadChunk(env, run.chunks[e.index], run.shared, e.fetch, e.ops).err.Some?
  {
    if run.cancelled then run
    else
      var s := match e
        case Dispatch(i, fetch, ops) => DownloadChunk(env, run.chunks[i], run.shared, fetch, ops)
        case Timeout(i) => WatcherTimeout(run.chunks[i], run.shared);
      Run(run.chunks[e.index := s.chunk], run.total, s.shared, s.err.Some?)
  }

  function ApplyAll(env: Env, run: Run, events: seq<Event>): (final: Run)
    requires RunOk(env, run, events)
    ensures |final.chunks| == |run.chunks| && final.total == run.total
    decreases |events|
  {
    if |events| == 0 then run
    else ApplyAll(env, Apply(env, run, events[0]), events[1..])
  }

  /** Once the run is cancelled any events naming real chunks may follow,
      whatever their bodies, and none of them changes it. */
  lemma {:induction false} CancelledRunIsFrozen(env: Env, run: Run, events: seq<Event>)
    requires run.cancelled
    requires InRange(|run.chunks|, events)
    ensures RunOk(env, run, events)
    ensures ApplyAll(env, run, events) == run
    decreases |events|
  {
    if |events| > 0 {
      assert InRange(|run.chunks|, events[1..]) by {
        forall k | 0 <= k < |events[1..]| ensures events[1..][k].index < |run.chunks| {
          assert events[1..][k] == events[k + 1];
        }
      }
      CancelledRunIsFrozen(env, run, events[1..]);
    }
  }

  /** A chunk whose fetch fails with its retries spent cancels the whole run:
      no later dispatch or retry takes effect. */
  lemma ExhaustedRetriesEndRun(env: Env, run: Run, i: nat, fetch: Fetch, ops: FileOps, later: seq<Event>)
    requires !run.cancelled && i < |run.chunks|
    requires Fetches(env, run.chunks[i], run.shared, ops)
    requires !fetch.ok && run.chunks[i].retryTimes >= env.retryCount
    requires InRange(|run.chunks|, later)
    ensures Apply(env, run, Dispatch(i, fetch, ops)).cancelled
    ensures Apply(env, run, Dispatch(i, fetch, ops)).chunks == run.chunks
    ensures RunOk(env, Apply(env, run, Dispatch(i, fetch, ops)), later)
    ensures ApplyAll(env, Apply(env, run, Dispatch(i, fetch, ops)), later) == Apply(env, run, Dispatch(i, fetch, ops))
  {
    var next := Apply(env, run, Dispatch(i, fetch, ops));
    assert next.chunks == run.chunks[i := run.chunks[i]];
    CancelledRunIsFrozen(env, next, later);
  }

  /** With a key, a failed fetch with its retries spent never reaches
      AESDecrypt: five bytes of a partial segment, not a whole block and so
      not decryptable, still just end the run with a fetch error and leave
      the chunk as it was. */
  lemma PartialEncryptedBodyEndsRun(env: Env, run: Run, i: nat, ops: FileOps)
    requires !run.cancelled && i < |run.chunks|
    requires env.key.Some? && Aes.ValidKeySize(|env.key.value.bytes|)
    requires Fetches(env, run.chunks[i], run.shared, ops)
    requires run.chunks[i].retryTimes >= env.retryCount
    ensures !DecryptSafe(env, [0, 0, 0, 0, 0])
    ensures DownloadChunk(env, run.chunks[i], run.shared, Fetch([0, 0, 0, 0, 0], false), ops).err == Some(FetchError)
    ensures Apply(env, run, Dispatch(i, Fetch([0, 0, 0, 0, 0], false), ops)).cancelled
    ensures Apply(env, run, Dispatch(i, Fetch([0, 0, 0, 0, 0], false), ops)).chunks == run.chunks
  {
    var body: Bytes := [0, 0, 0, 0, 0];
    assert |body| % Cbc.BlockSize != 0;
    ExhaustedRetriesEndRun(env, run, i, Fetch(body, false), ops, []);
  }

  /** With a key, a failed fetch that still has retries left and wrote
      nothing goes down the success path into AESDecrypt, which rejects the
      empty body: the chunk is left in success with no file, a retry sits in
      the queue, and the run is cancelled all the same. */
  lemma EncryptedRetryCancels(env: Env, run: Run, i: nat)
    requires !run.cancelled && i < |run.chunks|
    requires env.key.Some? && DecryptSafe(env, [])
    requires Fetches(env, run.chunks[i], run.shared, FileOps(true, true, true))
    requires run.chunks[i].retryTimes < env.retryCount
    ensures Apply(env, run, Dispatch(i, Fetch([], false), FileOps(true, true, true))).cancelled
    ensures Apply(env, run, Dispatch(i, Fetch([], false), FileOps(true, true, true))).chunks[i]
         == run.chunks[i].(status := Success, retryTimes := run.chunks[i].retryTimes + 1)
    ensures Apply(env, run, Dispatch(i, Fetch([], false), FileOps(true, true, true))).shared.files == run.shared.files
    ensures Apply(env, run, Dispatch(i, Fetch([], false), FileOps(true, true, true))).shared.retryQueue
         == run.shared.retryQueue + [run.chunks[i].index]
  {
    var c := run.chunks[i];
    var k := env.key.value;
    assert Aes.AesDecrypt(env.cipher, [], k.bytes, k.iv).Err?;
    assert Artifact(env, []).None?;
    var s := DownloadChunk(env, c, run.shared, Fetch([], false), FileOps(true, true, true));
    assert s.err.Some?;
    assert s.chunk == c.(status := Success, retryTimes := c.retryTimes + 1);
  }

  /** The state initChunk leaves: no chunk done, nothing counted or queued. */
  function Start(chunks: seq<Chunk>, total: nat, files: map<string, Bytes>): Run {
    Run(chunks, total, Shared(0, 0, 0, files, []), false)
  }

  lemma StartValid(env: Env, segments: seq<Option<string>>, chunks: seq<Chunk>, total: nat, files: map<string, Bytes>)
    requires |chunks| == total == |NonNil(segments)|
    requires forall i | 0 <= i < |chunks| :: chunks[i] == NewChunk(i, NonNil(segments)[i])
    ensures Valid(env, Start(chunks, total, files))
  {
    CountSignalledNone(chunks);
  }

  lemma {:induction false} CountSignalledNone(chunks: seq<Chunk>)
    requires forall i | 0 <= i < |chunks| :: !chunks[i].signalled
    ensures CountSignalled(chunks) == 0
    decreases |chunks|
  {
    if |chunks| > 0 {
      CountSignalledNone(chunks[..|chunks| - 1]);
    }
  }

  /** What one event may do to chunk `i` and the shared state for the run
      invariant to survive: the chunk stays well-formed, a fired signal
      stays fired and is counted once, files are only added, the byte
      count never drops and the queue names real chunks. */
  ghost predicate StepOk(tmp: string, n: nat, i: nat, c: Chunk, sh: Shared, s: Step) {
    && ChunkOk(tmp, s.chunk, i)
    && (c.signalled ==> s.chunk.signalled)
    && s.shared.complete == sh.complete - (if c.signalled then 1 else 0) + (if s.chunk.signalled then 1 else 0)
    && (forall p | p in sh.files :: p in s.shared.files)
    && (s.chunk.signalled ==> FinalPath(tmp, i) in s.shared.files)
    && s.shared.downloadSize >= sh.downloadSize
    && (forall k | 0 <= k < |s.shared.retryQueue| :: s.shared.retryQueue[k] < n)
  }

  lemma DispatchStepOk(env: Env, run: Run, i: nat, fetch: Fetch, ops: FileOps)
    requires Valid(env, run) && i < |run.chunks|
    requires DecryptReady(env, run.chunks[i], run.shared, fetch, ops)
    ensures StepOk(env.tmp, |run.chunks|, i, run.chunks[i], run.shared,
                   DownloadChunk(env, run.chunks[i], run.shared, fetch, ops))
  {
    var c := run.chunks[i];
    assert ChunkOk(env.tmp, c, i);
    var s := DownloadChunk(env, c, run.shared, fetch, ops);
    assert forall k | 0 <= k < |run.shared.retryQueue| :: run.shared.retryQueue[k] < |run.chunks|;
  }

  lemma TimeoutStepOk(env: Env, run: Run, i: nat)
    requires Valid(env, run) && i < |run.chunks|
    ensures StepOk(env.tmp, |run.chunks|, i, run.chunks[i], run.shared, WatcherTimeout(run.chunks[i], run.shared))
  {
    assert ChunkOk(env.tmp, run.chunks[i], i);
  }

  /** A step that is `StepOk` keeps the run invariant. */
  lemma StepKeepsValid(env: Env, run: Run, i: nat, s: Step, cancelled: bool)
    requires Valid(env, run) && i < |run.chunks|
    requires StepOk(env.tmp, |run.chunks|, i, run.chunks[i], run.shared, s)
    ensures Valid(env, Run(run.chunks[i := s.chunk], run.total, s.shared, cancelled))
  {
    var chunks := run.chunks[i := s.chunk];
    CountSignalledUpdate(run.chunks, i, s.chunk);
    assert forall j | 0 <= j < |run.chunks| && j != i :: chunks[j] == run.chunks[j];
    forall j | 0 <= j < |chunks| && chunks[j].signalled
      ensures FinalPath(env.tmp, j) in s.shared.files
    {
      if j != i {
        assert FinalPath(env.tmp, j) in run.shared.files;
      }
    }
  }

  /** Every event keeps the run invariant. */
  lemma ApplyValid(env: Env, run: Run, e: Event)
    requires Valid(env, run)
    requires EventOk(env, run, e)
    ensures Valid(env, Apply(env, run, e))
    ensures Apply(env, run, e).shared.complete >= run.shared.complete
    ensures Apply(env, run, e).shared.downloadSize >= run.shared.downloadSize
  {
    if !run.cancelled {
      var i := e.index;
      var s := match e
        case Dispatch(_, fetch, ops) => DownloadChunk(env, run.chunks[i], run.shared, fetch, ops)
        case Timeout(_) => WatcherTimeout(run.chunks[i], run.shared);
      match e {
        case Dispatch(_, fetch, ops) => DispatchStepOk(env, run, i, fetch, ops);
        case Timeout(_) => TimeoutStepOk(env, run, i);
      }
      StepKeepsValid(env, run, i, s, s.err.Some?);
      assert Apply(env, run, e) == Run(run.chunks[i := s.chunk], run.total, s.shared, s.err.Some?);
    }
  }

  /** A whole sequential run keeps the invariant; counters never go down. */
  lemma {:induction false} ApplyAllValid(env: Env, run: Run, events: seq<Event>)
    requires Valid(env, run)
    requires RunOk(env, run, events)
    ensures Valid(env, ApplyAll(env, run, events))
    ensures ApplyAll(env, run, events).shared.complete >= run.shared.complete
    ensures ApplyAll(env, run, events).shared.downloadSize >= run.shared.downloadSize
    decreases |events|
  {
    if |events| > 0 {
      ApplyValid(env, run, events[0]);
      var next := Apply(env, run, events[0]);
      ApplyAllValid(env, next, events[1..]);
    }
  }

  /** Progress: completed and total chunk counts; in a valid run the first
      never exceeds the second. */
  function Progress(env: Env, run: Run): (r: (int, int))
    requires Valid(env, run)
    ensures 0 <= r.0 <= r.1 == |run.chunks|
  {
    (run.shared.complete, run.total)
  }

  /** DownloadSize: the bytes written by all fetches so far. */
  function DownloadSize(env: Env, run: Run): (r: int)
    requires Valid(env, run)
    ensures r >= 0
  {
    run.shared.downloadSize
  }
}

=== FILE: gostrings.dfy ===
/** The two functions of Go's `strings` package the core relies on. */
module GoStrings {

  /** strings.HasPrefix: an exact, case-sensitive comparison. */
  predicate HasPrefix(s: string, prefix: string) {
    |prefix| <= |s| && s[..|prefix|] == prefix
  }

  /** strings.TrimRight: drops every trailing character that occurs in
      `cutset`, however the cutset characters are ordered. */
  function TrimRight(s: string, cutset: string): (r: string)
    ensures r <= s
    ensures r == [] || r[|r| - 1] !in cutset
    ensures forall i | |r| <= i < |s| :: s[i] in cutset
    decreases |s|
  {
    if |s| > 0 && s[|s| - 1] in cutset then TrimRight(s[..|s| - 1], cutset) else s
  }

  /** The result of TrimRight is pinned down by its three properties: any
      split of `s` into a kept part ending outside the cutset and a removed
      part made of cutset characters is the split TrimRight makes. */
  lemma {:induction false} TrimRightUnique(kept: string, removed: string, cutset: string)
    requires kept == [] || kept[|kept| - 1] !in cutset
    requires forall i | 0 <= i < |removed| :: removed[i] in cutset
    ensures TrimRight(kept + removed, cutset) == kept
    decreases |removed|
  {
    if |removed| == 0 {
      assert kept + removed == kept;
    } else {
      var shorter := removed[..|removed| - 1];
      assert (kept + removed)[..|kept + removed| - 1] == kept + shorter;
      TrimRightUnique(kept, shorter, cutset);
    }
  }

  /** A string trimmed by its own characters vanishes. */
  lemma TrimOwnCutset(s: string)
    ensures TrimRight(s, s) == ""
  {
    forall i | 0 <= i < |s|
      ensures s[i] in s
    {
    }
    TrimRightUnique("", s, s);
    assert "" + s == s;
  }
}

=== FILE: merge.dfy ===
/** merge of dl/downloader.go as a fold over the chunk list in index order.
    For each chunk it waits for the chunk's signal or the run's cancellation,
    then appends the chunk's finalized file to the output and deletes it. */
module Merging {
  import opened Wrappers
  import opened Chunks
  import Downloader
  import GoStrings

  /** What merge's select observes for one chunk: the run's cancellation, or
      the chunk's signal together with whether copying its file succeeds.
      Go chooses at random among ready cases, and a chunk's context is a
      child of the run's, so after a cancellation either may be observed. */
  datatype Wake = Cancelled | Signalled(copyOk: bool)

  datatype MergeError = CreateError | OpenError(path: string) | CopyError(path: string)

  /** The error merge returns, the bytes of the output file, the scratch
      files left, and whether every chunk was merged. */
  datatype MergeOutcome = MergeOutcome(err: Option<MergeError>, output: Bytes, files: map<string, Bytes>, finished: bool)

  /** The chunks' files in list order. */
  predicate Present(files: map<string, Bytes>, chunks: seq<Chunk>) {
    forall i | 0 <= i < |chunks| :: chunks[i].filepath in files
  }

  predicate DistinctPaths(chunks: seq<Chunk>) {
    forall i, j | 0 <= i < j < |chunks| :: chunks[i].filepath != chunks[j].filepath
  }

  function PathSet(chunks: seq<Chunk>): set<string> {
    set i | 0 <= i < |chunks| :: chunks[i].filepath
  }

  /** The reference result: the chunks' file contents concatenated in order. */
  function Concat(files: map<string, Bytes>, chunks: seq<Chunk>): Bytes
    requires Present(files, chunks)
    decreases |chunks|
  {
    if |chunks| == 0 then [] else files[chunks[0].filepath] + Concat(files, chunks[1..])
  }

  /** The loop of merge from some chunk on. Cancellation ends it with no
      error (`return nil`); a missing file or a failed copy ends it with that
      error; the file is removed whether or not the copy succeeded. */
  function MergeFrom(chunks: seq<Chunk>, files: map<string, Bytes>, output: Bytes, wakes: seq<Wake>): (m: MergeOutcome)
    requires |wakes| == |chunks|
    ensures output <= m.output
    ensures m.finished ==> m.err.None?
    decreases |chunks|
  {
    if |chunks| == 0 then MergeOutcome(None, output, files, true)
    else
      match wakes[0]
      case Cancelled => MergeOutcome(None, output, files, false)
      case Signalled(copyOk) =>
        var p := chunks[0].filepath;
        if p !in files then MergeOutcome(Some(OpenError(p)), output, files, false)
        else if !copyOk then MergeOutcome(Some(CopyError(p)), output, files - {p}, false)
        else MergeFrom(chunks[1..], files - {p}, output + files[p], wakes[1..])
  }

  /** Everything at or below the scratch directory, which os.RemoveAll
      deletes; the loop around it retries until it succeeds. */
  function RemoveTree(files: map<string, Bytes>, dir: string): (rest: map<string, Bytes>)
    ensures forall p | p in rest :: p in files && p != dir && !GoStrings.HasPrefix(p, dir + "/")
    ensures forall p | p in files && p != dir && !GoStrings.HasPrefix(p, dir + "/") :: p in rest && rest[p] == files[p]
  {
    map p | p in files && p != dir && !GoStrings.HasPrefix(p, dir + "/") :: files[p]
  }

  /** merge: create the output file, run the loop, and after the last chunk
      remove the scratch directory. */
  function Merge(tmp: string, chunks: seq<Chunk>, files: map<string, Bytes>, createOk: bool, wakes: seq<Wake>): (m: MergeOutcome)
    requires |wakes| == |chunks|
    ensures !createOk ==> m.err == Some(CreateError) && m.output == []
    ensures createOk && m.err.None? && !m.finished ==> exists i | 0 <= i < |chunks| :: wakes[i] == Cancelled
  {
    if !createOk then MergeOutcome(Some(CreateError), [], files, false)
    else
      var m := MergeFrom(chunks, files, [], wakes);
      CancelledSomewhere(chunks, files, [], wakes);
      if m.finished then m.(files := RemoveTree(m.files, tmp)) else m
  }

  /** Stopping with no error means some chunk's wait saw the cancellation. */
  lemma {:induction false} CancelledSomewhere(chunks: seq<Chunk>, files: map<string, Bytes>, output: Bytes, wakes: seq<Wake>)
    requires |wakes| == |chunks|
    ensures var m := MergeFrom(chunks, files, output, wakes);
      m.err.None? && !m.finished ==> exists i | 0 <= i < |chunks| :: wakes[i] == Cancelled
    decreases |chunks|
  {
    if |chunks| > 0 && wakes[0].Signalled? {
      var p := chunks[0].filepath;
      if p in files && wakes[0].copyOk {
        CancelledSomewhere(chunks[1..], files - {p}, output + files[p], wakes[1..]);
        var m := MergeFrom(chunks[1..], files - {p}, output + files[p], wakes[1..]);
        if m.err.None? && !m.finished {
          var i :| 0 <= i < |chunks| - 1 && wakes[1..][i] == Cancelled;
          assert wakes[i + 1] == Cancelled;
        }
      }
    }
  }

  lemma {:induction false} ConcatFrame(files: map<string, Bytes>, chunks: seq<Chunk>, p: string)
    requires Present(files, chunks)
    requires p !in PathSet(chunks)
    ensures Present(files - {p}, chunks)
    ensures Concat(files - {p}, chunks) == Concat(files, chunks)
    decreases |chunks|
  {
    assert forall i | 0 <= i < |chunks| :: chunks[i].filepath in PathSet(chunks);
    if |chunks| > 0 {
      assert PathSet(chunks[1..]) <= PathSet(chunks) by {
        forall q | q in PathSet(chunks[1..])
          ensures q in PathSet(chunks)
        {
          var i :| 0 <= i < |chunks| - 1 && chunks[1..][i].filepath == q;
          assert chunks[i + 1].filepath == q;
        }
      }
      ConcatFrame(files, chunks[1..], p);
    }
  }

  /** After the first `i` chunks have all been signalled and copied, merge
      has written exactly their files, in order, and deleted them. */
  lemma {:induction false} MergePrefix(chunks: seq<Chunk>, files: map<string, Bytes>, output: Bytes, wakes: seq<Wake>, i: nat)
    requires |wakes| == |chunks| && i <= |chunks|
    requires forall j | 0 <= j < i :: wakes[j] == Signalled(true)
    requires Present(files, chunks[..i]) && DistinctPaths(chunks[..i])
    ensures MergeFrom(chunks, files, output, wakes)
         == MergeFrom(chunks[i..], files - PathSet(chunks[..i]), output + Concat(files, chunks[..i]), wakes[i..])
    decreases i
  {
    if i == 0 {
      assert chunks[0..] == chunks && wakes[0..] == wakes;
      assert PathSet(chunks[..0]) == {};
      assert files - {} == files;
      assert output + [] == output;
    } else {
      var p := chunks[0].filepath;
      var pre := chunks[..i];
      var rest := chunks[1..];
      var tailPre := rest[..i - 1];
      assert pre[0] == chunks[0];
      assert tailPre == pre[1..];
      assert forall k | 0 <= k < i - 1 :: tailPre[k] == pre[k + 1];
      assert p !in PathSet(tailPre) by {
        forall k | 0 <= k < i - 1
          ensures tailPre[k].filepath != p
        {
          assert tailPre[k].filepath == pre[k + 1].filepath != pre[0].filepath;
        }
      }
      assert Present(files, tailPre);
      ConcatFrame(files, tailPre, p);
      assert DistinctPaths(tailPre);
      MergePrefix(rest, files - {p}, output + files[p], wakes[1..], i - 1);
      assert rest[i - 1..] == chunks[i..];
      assert wakes[1..][i - 1..] == wakes[i..];
      assert PathSet(pre) == {p} + PathSet(tailPre) by {
        forall q | q in PathSet(pre)
          ensures q in {p} + PathSet(tailPre)
        {
          var k :| 0 <= k < i && pre[k].filepath == q;
          if k > 0 {
            assert tailPre[k - 1] == pre[k];
          }
        }
      }
      assert (files - {p}) - PathSet(tailPre) == files - PathSet(pre);
      assert Concat(files, pre) == files[p] + Concat(files, tailPre);
      assert output + files[p] + Concat(files, tailPre) == output + Concat(files, pre);
    }
  }

  /** With every chunk signalled and copied, the output is the chunks'
      files concatenated in index order. */
  lemma MergeAllChunks(tmp: string, chunks: seq<Chunk>, files: map<string, Bytes>, wakes: seq<Wake>)
    requires |wakes| == |chunks|
    requires forall j | 0 <= j < |chunks| :: wakes[j] == Signalled(true)
    requires Present(files, chunks) && DistinctPaths(chunks)
    ensures Merge(tmp, chunks, files, true, wakes).err.None?
    ensures Merge(tmp, chunks, files, true, wakes).finished
    ensures Merge(tmp, chunks, files, true, wakes).output == Concat(files, chunks)
  {
    assert chunks[..|chunks|] == chunks;
    MergePrefix(chunks, files, [], wakes, |chunks|);
    assert [] + Concat(files, chunks) == Concat(files, chunks);
  }

  /** When the `i`-th wait sees the cancellation, merge returns nil having
      written exactly the files of chunks 0..i-1, and the run is unfinished. */
  lemma MergeStopsAtCancel(tmp: string, chunks: seq<Chunk>, files: map<string, Bytes>, wakes: seq<Wake>, i: nat)
    requires |wakes| == |chunks| && i < |chunks|
    requires forall j | 0 <= j < i :: wakes[j] == Signalled(true)
    requires wakes[i] == Cancelled
    requires Present(files, chunks[..i]) && DistinctPaths(chunks[..i])
    ensures Merge(tmp, chunks, files, true, wakes).err.None?
    ensures !Merge(tmp, chunks, files, true, wakes).finished
    ensures Merge(tmp, chunks, files, true, wakes).output == Concat(files, chunks[..i])
  {
    MergePrefix(chunks, files, [], wakes, i);
    assert wakes[i..][0] == Cancelled;
    assert [] + Concat(files, chunks[..i]) == Concat(files, chunks[..i]);
  }

  /** When the `i`-th chunk's file cannot be opened or copied, merge
      returns that error with exactly the files of chunks 0..i-1 written. */
  lemma MergeStopsAtError(tmp: string, chunks: seq<Chunk>, files: map<string, Bytes>, wakes: seq<Wake>, i: nat, ok: bool)
    requires |wakes| == |chunks| && i < |chunks|
    requires forall j | 0 <= j < i :: wakes[j] == Signalled(true)
    requires wakes[i] == Signalled(ok)
    requires Present(files, chunks[..i]) && DistinctPaths(chunks[..i])
    // the file is missing, or an earlier chunk with the same path removed it
    ensures chunks[i].filepath !in files || chunks[i].filepath in PathSet(chunks[..i]) ==>
      Merge(tmp, chunks, files, true, wakes)
        == MergeOutcome(Some(OpenError(chunks[i].filepath)), Concat(files, chunks[..i]), files - PathSet(chunks[..i]), false)
    ensures chunks[i].filepath in files && chunks[i].filepath !in PathSet(chunks[..i]) && !ok ==>
      Merge(tmp, chunks, files, true, wakes)
        == MergeOutcome(Some(CopyError(chunks[i].filepath)), Concat(files, chunks[..i]),
                        files - PathSet(chunks[..i]) - {chunks[i].filepath}, false)
  {
    MergePrefix(chunks, files, [], wakes, i);
    var p := chunks[i].filepath;
    var rest := files - PathSet(chunks[..i]);
    var out := [] + Concat(files, chunks[..i]);
    assert out == Concat(files, chunks[..i]);
    assert chunks[i..][0] == chunks[i] && wakes[i..][0] == Signalled(ok);
    assert p in rest <==> p in files && p !in PathSet(chunks[..i]);
    var m := MergeFrom(chunks[i..], rest, out, wakes[i..]);
    if p !in rest {
      assert m == MergeOutcome(Some(OpenError(p)), out, rest, false);
    } else if !ok {
      assert m == MergeOutcome(Some(CopyError(p)), out, rest - {p}, false);
    }
  }

  /** A chunk left in success without a file path (its decryption failed)
      makes merge fail to open "" if its signal is what the wait observes. */
  lemma UnfinalizedChunkFailsOpen(tmp: string, chunks: seq<Chunk>, files: map<string, Bytes>, wakes: seq<Wake>)
    requires |wakes| == |chunks| && |chunks| > 0
    requires chunks[0].filepath == "" && "" !in files
    requires wakes[0].Signalled?
    ensures Merge(tmp, chunks, files, true, wakes).err == Some(OpenError(""))
  {
  }

  /** End to end: after a sequential run in which every chunk fired its
      signal, merging writes the finalized files `<tmp>/<i>.ts` in index
      order, whatever order the downloads and retries happened in. */
  lemma MergeAfterDownloads(env: Downloader.Env, run: Downloader.Run, wakes: seq<Wake>)
    requires Downloader.Valid(env, run)
    requires forall i | 0 <= i < |run.chunks| :: run.chunks[i].signalled
    requires |wakes| == |run.chunks|
    requires forall j | 0 <= j < |wakes| :: wakes[j] == Signalled(true)
    ensures forall i | 0 <= i < |run.chunks| :: run.chunks[i].filepath == FinalPath(env.tmp, i)
    ensures Present(run.shared.files, run.chunks)
    ensures var m := Merge(env.tmp, run.chunks, run.shared.files, true, wakes);
      m.err.None? && m.finished && m.output == Concat(run.shared.files, run.chunks)
  {
    var chunks := run.chunks;
    assert forall i | 0 <= i < |chunks| :: Downloader.ChunkOk(env.tmp, chunks[i], i);
    forall i, j | 0 <= i < j < |chunks|
      ensures chunks[i].filepath != chunks[j].filepath
    {
      if chunks[i].filepath == chunks[j].filepath {
        FinalPathInjective(env.tmp, i, j);
      }
    }
    MergeAllChunks(env.tmp, chunks, run.shared.files, wakes);
  }
}

=== FILE: paths.dfy ===
/** Lexical slash-separated path handling of Go's `path` package: Base,
    Clean and a two-element Join. A path is viewed as the list of its
    '/'-separated elements; cleaning drops empty and "." elements and lets
    each ".." cancel the element before it. */
module Paths {

  /** The '/'-separated elements of `s`, as `strings.Split(s, "/")`. */
  function Split(s: string): (parts: seq<string>)
    ensures |parts| >= 1
    ensures forall i | 0 <= i < |parts| :: '/' !in parts[i]
    decreases |s|
  {
    if |s| == 0 then [""]
    else if s[0] == '/' then [""] + Split(s[1..])
    else
      var rest := Split(s[1..]);
      [[s[0]] + rest[0]] + rest[1..]
  }

  /** The elements joined with '/', as `strings.Join(parts, "/")`. */
  function JoinSegments(parts: seq<string>): string
    decreases |parts|
  {
    if |parts| == 0 then ""
    else if |parts| == 1 then parts[0]
    else parts[0] + "/" + JoinSegments(parts[1..])
  }

  predicate SlashFree(parts: seq<string>) {
    forall i | 0 <= i < |parts| :: '/' !in parts[i]
  }

  /** Joining the elements of a string gives the string back. */
  lemma {:induction false} JoinSplit(s: string)
    ensures JoinSegments(Split(s)) == s
    decreases |s|
  {
    if |s| > 0 {
      var rest := Split(s[1..]);
      JoinSplit(s[1..]);
      if s[0] == '/' {
        assert Split(s) == [""] + rest;
        assert JoinSegments([""] + rest) == "" + "/" + JoinSegments(rest);
      } else if |rest| == 1 {
        assert JoinSegments(Split(s)) == [s[0]] + rest[0];
      } else {
        var parts := Split(s);
        assert parts[1..] == rest[1..];
        assert JoinSegments(rest) == rest[0] + "/" + JoinSegments(rest[1..]);
        assert JoinSegments(parts) == ([s[0]] + rest[0]) + "/" + JoinSegments(rest[1..]);
      }
    }
  }

  /** A slash-free prefix only extends the first element. */
  lemma {:induction false} SplitSlashFreePrefix(a: string, s: string)
    requires '/' !in a
    ensures Split(a + s) == [a + Split(s)[0]] + Split(s)[1..]
    decreases |a|
  {
    if |a| > 0 {
      assert (a + s)[1..] == a[1..] + s;
      SplitSlashFreePrefix(a[1..], s);
      assert [a[0]] + (a[1..] + Split(s)[0]) == a + Split(s)[0];
    } else {
      var parts := Split(s);
      assert a + s == s;
      assert a + parts[0] == parts[0];
      assert parts == [parts[0]] + parts[1..];
    }
  }

  /** A slash-free element followed by '/' becomes the first element. */
  lemma SplitAtSlash(a: string, rest: string)
    requires '/' !in a
    ensures Split(a + "/" + rest) == [a] + Split(rest)
  {
    assert a + "/" + rest == a + ("/" + rest);
    SplitSlashFreePrefix(a, "/" + rest);
    assert ("/" + rest)[1..] == rest;
    assert a + "" == a;
  }

  /** Splitting the join of slash-free elements gives the elements back. */
  lemma {:induction false} SplitJoin(parts: seq<string>)
    requires |parts| >= 1
    requires SlashFree(parts)
    ensures Split(JoinSegments(parts)) == parts
    decreases |parts|
  {
    if |parts| == 1 {
      SplitSlashFreePrefix(parts[0], "");
      assert parts[0] + "" == parts[0];
    } else {
      var tail := JoinSegments(parts[1..]);
      SplitJoin(parts[1..]);
      assert parts[0] + "/" + tail == parts[0] + ("/" + tail);
      SplitSlashFreePrefix(parts[0], "/" + tail);
      assert ("/" + tail)[1..] == tail;
      assert Split("/" + tail) == [""] + parts[1..];
      assert parts[0] + "" == parts[0];
      assert parts == [parts[0]] + parts[1..];
    }
  }

  /** One element of the cleaning pass: "" and "." vanish, ".." removes the
      previous element unless that is itself "..", and at the root a ".."
      with nothing to remove is dropped. */
  function Push(stack: seq<string>, elem: string, rooted: bool): seq<string> {
    if elem == "" || elem == "." then stack
    else if elem == ".." then
      if |stack| > 0 && stack[|stack| - 1] != ".." then stack[..|stack| - 1]
      else if rooted then stack
      else stack + [".."]
    else stack + [elem]
  }

  /** The cleaning pass over all elements, left to right. */
  function Resolve(stack: seq<string>, elems: seq<string>, rooted: bool): seq<string>
    decreases |elems|
  {
    if |elems| == 0 then stack else Resolve(Push(stack, elems[0], rooted), elems[1..], rooted)
  }

  /** A cleaned element list: no empty, "." or slash-carrying elements, ".."
      only as a leading run, and none at all under the root. */
  ghost predicate Normal(stack: seq<string>, rooted: bool) {
    && (forall i | 0 <= i < |stack| :: stack[i] != "" && stack[i] != "." && '/' !in stack[i])
    && (forall i, j | 0 <= j < i < |stack| && stack[i] == ".." :: stack[j] == "..")
    && (rooted ==> forall i | 0 <= i < |stack| :: stack[i] != "..")
  }

  lemma PushNormal(stack: seq<string>, elem: string, rooted: bool)
    requires Normal(stack, rooted)
    requires '/' !in elem
    ensures Normal(Push(stack, elem, rooted), rooted)
  {
  }

  lemma {:induction false} ResolveNormal(stack: seq<string>, elems: seq<string>, rooted: bool)
    requires Normal(stack, rooted)
    requires SlashFree(elems)
    ensures Normal(Resolve(stack, elems, rooted), rooted)
    decreases |elems|
  {
    if |elems| > 0 {
      PushNormal(stack, elems[0], rooted);
      ResolveNormal(Push(stack, elems[0], rooted), elems[1..], rooted);
    }
  }

  /** The pass leaves an already cleaned list alone. */
  lemma {:induction false} ResolveKeepsNormal(stack: seq<string>, elems: seq<string>, rooted: bool)
    requires Normal(stack + elems, rooted)
    ensures Resolve(stack, elems, rooted) == stack + elems
    decreases |elems|
  {
    if |elems| == 0 {
      assert stack + elems == stack;
    } else {
      var all := stack + elems;
      assert all[|stack|] == elems[0];
      if elems[0] == ".." && |stack| > 0 {
        assert all[|stack| - 1] == stack[|stack| - 1];
      }
      assert Push(stack, elems[0], rooted) == stack + [elems[0]];
      assert (stack + [elems[0]]) + elems[1..] == all;
      ResolveKeepsNormal(stack + [elems[0]], elems[1..], rooted);
    }
  }

  /** What path.Clean can return: ".", "/", or a possibly rooted path whose
      elements form a cleaned list. */
  ghost predicate IsClean(q: string) {
    || q == "."
    || q == "/"
    || (|q| > 0 && if q[0] == '/' then Normal(Split(q[1..]), true) else Normal(Split(q), false))
  }

  lemma JoinHead(parts: seq<string>)
    requires |parts| >= 1 && parts[0] != ""
    ensures |JoinSegments(parts)| > 0 && JoinSegments(parts)[0] == parts[0][0]
  {
  }

  /** path.Clean: the shortest lexically equivalent path, "." for nothing. */
  function Clean(p: string): (q: string)
    ensures IsClean(q)
    ensures q != ""
    ensures p != "" && p[0] == '/' <==> q[0] == '/'
  {
    if p == "" then "."
    else
      var rooted := p[0] == '/';
      var stack := Resolve([], Split(p), rooted);
      ResolveNormal([], Split(p), rooted);
      var body := JoinSegments(stack);
      if |stack| > 0 then
        SplitJoin(stack);
        JoinHead(stack);
        if rooted then
          assert ("/" + body)[1..] == body;
          "/" + body
        else body
      else if rooted then "/" else "."
  }

  lemma SplitDot()
    ensures Split(".") == ["."]
  {
    assert "."[1..] == "";
    assert Split("") == [""];
    assert ['.'] + "" == ".";
  }

  lemma SplitRoot()
    ensures Split("/") == ["", ""]
  {
    assert "/"[1..] == "";
  }

  /** A clean path is its own cleaning. */
  lemma CleanKeepsClean(q: string)
    requires IsClean(q)
    ensures Clean(q) == q
  {
    if q == "." {
      SplitDot();
      assert Resolve([], ["."], false) == [];
    } else if q == "/" {
      SplitRoot();
      assert Resolve([], ["", ""], true) == [];
    } else if q[0] == '/' {
      var parts := Split(q[1..]);
      assert Split(q) == [""] + parts;
      assert Push([], "", true) == [];
      assert ([] + parts) == parts;
      ResolveKeepsNormal([], parts, true);
      JoinSplit(q[1..]);
      assert "/" + q[1..] == q;
    } else {
      var parts := Split(q);
      assert [] + parts == parts;
      ResolveKeepsNormal([], parts, false);
      JoinSplit(q);
    }
  }

  /** Cleaning is idempotent. */
  lemma CleanIdempotent(p: string)
    ensures Clean(Clean(p)) == Clean(p)
  {
    CleanKeepsClean(Clean(p));
  }

  /** The fixed points of Clean are exactly the clean paths. */
  lemma CleanFixedPoints(q: string)
    ensures Clean(q) == q <==> IsClean(q)
  {
    if IsClean(q) {
      CleanKeepsClean(q);
    }
  }

  // ------------------------------------------- Clean is lexical equivalence

  /** One step of Split: a leading '/' starts a new element, any other
      character extends the first one. */
  lemma SplitCons(c: char, t: string)
    ensures c == '/' ==> Split([c] + t) == [""] + Split(t)
    ensures c != '/' ==> Split([c] + t) == [[c] + Split(t)[0]] + Split(t)[1..]
  {
    assert ([c] + t)[0] == c && ([c] + t)[1..] == t;
  }

  /** Splitting at one '/' splits the two sides independently. */
  lemma {:induction false} SplitConcat(a: string, b: string)
    ensures Split(a + "/" + b) == Split(a) + Split(b)
    decreases |a|
  {
    if |a| == 0 {
      assert a + "/" + b == ['/'] + b;
      SplitCons('/', b);
    } else {
      SplitConcat(a[1..], b);
      assert a + "/" + b == [a[0]] + (a[1..] + "/" + b);
      assert a == [a[0]] + a[1..];
      SplitConcatStep(a[0], a[1..], b);
    }
  }

  /** The inductive step of SplitConcat: one more leading character. */
  lemma SplitConcatStep(c: char, x: string, b: string)
    requires Split(x + "/" + b) == Split(x) + Split(b)
    ensures Split([c] + (x + "/" + b)) == Split([c] + x) + Split(b)
  {
    SplitCons(c, x + "/" + b);
    SplitCons(c, x);
    ExtendFirst(c, Split(x + "/" + b), Split(x), Split(b));
  }

  /** Extending the first element commutes with appending more elements. */
  lemma ExtendFirst(c: char, all: seq<string>, front: seq<string>, back: seq<string>)
    requires all == front + back && |front| >= 1
    ensures [""] + all == ([""] + front) + back
    ensures [[c] + all[0]] + all[1..] == ([[c] + front[0]] + front[1..]) + back
  {
    assert all[0] == front[0];
    assert all[1..] == front[1..] + back;
  }

  /** The cleaning pass over two lists runs over the first, then the second. */
  lemma {:induction false} ResolveConcat(stack: seq<string>, e1: seq<string>, e2: seq<string>, rooted: bool)
    ensures Resolve(stack, e1 + e2, rooted) == Resolve(Resolve(stack, e1, rooted), e2, rooted)
    decreases |e1|
  {
    if |e1| == 0 {
      assert e1 + e2 == e2;
    } else {
      assert (e1 + e2)[0] == e1[0] && (e1 + e2)[1..] == e1[1..] + e2;
      ResolveConcat(Push(stack, e1[0], rooted), e1[1..], e2, rooted);
    }
  }

  /** Clean depends on a path only through its rootedness and its cleaned
      element list. */
  lemma SameStackSameClean(p: string, q: string)
    requires p != "" && q != "" && (p[0] == '/' <==> q[0] == '/')
    requires Resolve([], Split(p), p[0] == '/') == Resolve([], Split(q), p[0] == '/')
    ensures Clean(p) == Clean(q)
  {
  }

  /** A path element with no special meaning to Clean. */
  predicate PlainName(n: string) {
    n != "" && n != "." && n != ".." && '/' !in n
  }

  lemma SplitName(n: string)
    requires '/' !in n
    ensures Split(n) == [n]
  {
    SplitSlashFreePrefix(n, "");
    assert n + "" == n;
  }

  /** Doubled slashes do not matter: an empty element is dropped. */
  lemma CleanDropsEmpty(x: string, y: string)
    ensures Clean(x + "//" + y) == Clean(x + "/" + y)
  {
    var rooted := (x + "/" + y)[0] == '/';
    assert x + "//" + y == x + "/" + ("/" + y);
    SplitConcat(x, "/" + y);
    SplitConcat(x, y);
    assert Split("/" + y) == [""] + Split(y) by {
      assert ("/" + y)[1..] == y;
    }
    assert Split(x) + ([""] + Split(y)) == (Split(x) + [""]) + Split(y);
    ResolveConcat([], Split(x) + [""], Split(y), rooted);
    ResolveConcat([], Split(x), [""], rooted);
    ResolveConcat([], Split(x), Split(y), rooted);
    SameStackSameClean(x + "//" + y, x + "/" + y);
  }

  /** A "." element does not matter. */
  lemma CleanDropsDot(x: string, y: string)
    ensures Clean(x + "/./" + y) == Clean(x + "/" + y)
  {
    var rooted := (x + "/" + y)[0] == '/';
    assert x + "/./" + y == x + "/" + ("." + "/" + y);
    SplitConcat(x, "." + "/" + y);
    SplitConcat(x, y);
    SplitAtSlash(".", y);
    assert Split(x) + (["."] + Split(y)) == (Split(x) + ["."]) + Split(y);
    ResolveConcat([], Split(x) + ["."], Split(y), rooted);
    ResolveConcat([], Split(x), ["."], rooted);
    ResolveConcat([], Split(x), Split(y), rooted);
    SameStackSameClean(x + "/./" + y, x + "/" + y);
  }

  /** A ".." element cancels the plain element before it. */
  lemma CleanCancelsDotDot(x: string, n: string, y: string)
    requires PlainName(n)
    ensures Clean(x + "/" + n + "/../" + y) == Clean(x + "/" + y)
  {
    var rooted := (x + "/" + y)[0] == '/';
    assert x + "/" + n + "/../" + y == x + "/" + (n + "/" + (".." + "/" + y));
    SplitConcat(x, n + "/" + (".." + "/" + y));
    SplitAtSlash(n, ".." + "/" + y);
    SplitAtSlash("..", y);
    SplitConcat(x, y);
    assert Split(x) + ([n] + ([".."] + Split(y))) == (Split(x) + [n, ".."]) + Split(y);
    ResolveConcat([], Split(x) + [n, ".."], Split(y), rooted);
    ResolveConcat([], Split(x), [n, ".."], rooted);
    ResolveConcat([], Split(x), Split(y), rooted);
    assert (x + "/" + n + "/../" + y)[0] == (x + "/" + y)[0] by {
      if x != "" {
        assert (x + "/" + n + "/../" + y)[0] == x[0] == (x + "/" + y)[0];
      }
    }
    var st := Resolve([], Split(x), rooted);
    assert [n, ".."][1..] == [".."];
    assert Push(st, n, rooted) == st + [n];
    assert (st + [n])[..|st + [n]| - 1] == st;
    assert Push(st + [n], "..", rooted) == st;
    assert Resolve(st + [n], [".."], rooted) == Resolve(st, [], rooted) == st;
    assert Resolve(st, [n, ".."], rooted) == st;
    SameStackSameClean(x + "/" + n + "/../" + y, x + "/" + y);
  }

  /** At the root ".." has nothing to cancel and is dropped. */
  lemma CleanRootDotDot(y: string)
    ensures Clean("/../" + y) == Clean("/" + y)
    ensures Clean("/..") == "/"
  {
    var rest := Split(y);
    assert "/../" + y == "" + "/" + (".." + "/" + y);
    SplitConcat("", ".." + "/" + y);
    SplitAtSlash("..", y);
    assert "/" + y == "" + "/" + y;
    SplitConcat("", y);
    var elems := [""] + ([".."] + rest);
    assert elems[1..] == [".."] + rest && elems[1..][1..] == rest;
    assert Resolve([], elems, true) == Resolve([], rest, true);
    assert ([""] + rest)[1..] == rest;
    assert Resolve([], [""] + rest, true) == Resolve([], rest, true);
    SameStackSameClean("/../" + y, "/" + y);
    assert "/.." == "" + "/" + "..";
    SplitConcat("", "..");
    SplitName("..");
    assert Resolve([], ["", ".."], true) == [];
  }

  /** A leading plain element followed by ".." cancels out. */
  lemma CleanLeadingDotDot(n: string, y: string)
    requires PlainName(n) && (y == "" || y[0] != '/')
    ensures Clean(n + "/../" + y) == Clean(y)
  {
    var rest := Split(y);
    var p := n + "/../" + y;
    assert p == n + "/" + (".." + "/" + y);
    SplitAtSlash(n, ".." + "/" + y);
    SplitAtSlash("..", y);
    assert p[0] == n[0] != '/' by {
      assert n[0] in n;
    }
    var elems := [n] + ([".."] + rest);
    assert elems[1..] == [".."] + rest && elems[1..][1..] == rest;
    assert Push([], n, false) == [n] && Push([n], "..", false) == [];
    assert Resolve([], elems, false) == Resolve([], rest, false);
    if y == "" {
      assert Resolve([], [""], false) == [];
    } else {
      SameStackSameClean(p, y);
    }
  }

  /** A leading "." element does not matter. */
  lemma CleanLeadingDot(y: string)
    requires y == "" || y[0] != '/'
    ensures Clean("./" + y) == Clean(y)
  {
    var rest := Split(y);
    assert "./" + y == "." + "/" + y;
    SplitAtSlash(".", y);
    assert (["."] + rest)[1..] == rest;
    assert Resolve([], ["."] + rest, false) == Resolve([], rest, false);
    if y == "" {
      assert Resolve([], [""], false) == [];
    } else {
      SameStackSameClean("./" + y, y);
    }
  }

  /** A trailing slash does not matter. */
  lemma CleanTrailingSlash(x: string)
    requires x != ""
    ensures Clean(x + "/") == Clean(x)
  {
    var rooted := x[0] == '/';
    assert x + "/" == x + "/" + "";
    SplitConcat(x, "");
    assert Split("") == [""];
    ResolveConcat([], Split(x), [""], rooted);
    assert Resolve(Resolve([], Split(x), rooted), [""], rooted) == Resolve([], Split(x), rooted);
    SameStackSameClean(x + "/", x);
  }

  lemma {:induction false} JoinSegmentsAppend(parts: seq<string>, n: string)
    requires |parts| >= 1
    ensures JoinSegments(parts + [n]) == JoinSegments(parts) + "/" + n
    decreases |parts|
  {
    if |parts| == 1 {
      assert (parts + [n])[1..] == [n];
    } else {
      assert (parts + [n])[1..] == parts[1..] + [n];
      JoinSegmentsAppend(parts[1..], n);
    }
  }

  /** path.Join of two elements: empty elements are skipped, the rest are
      joined with '/' and cleaned; two empty elements give "". */
  function Join(a: string, b: string): (r: string)
    ensures r == "" <==> a == "" && b == ""
    ensures r != "" ==> IsClean(r)
    ensures a == "" && b != "" ==> r == Clean(b)
    ensures a != "" ==> r == Clean(a + "/" + b)
  {
    if a == "" && b == "" then ""
    else if a == "" then Clean(b)
    else Clean(a + "/" + b)
  }

  /** Joining a plain name onto a clean directory just appends it, the case
      ResolveURL meets for a segment URI relative to the playlist's base. */
  lemma JoinPlainName(base: string, name: string)
    requires IsClean(base) && PlainName(name)
    ensures base == "." ==> Join(base, name) == name
    ensures base == "/" ==> Join(base, name) == "/" + name
    ensures base != "." && base != "/" ==> Join(base, name) == base + "/" + name
  {
    assert Join(base, name) == Clean(base + "/" + name);
    if base == "." {
      CleanDotName(name);
    } else if base == "/" {
      CleanRootName(name);
    } else {
      CleanDirName(base, name);
    }
  }

  lemma CleanDotName(name: string)
    requires PlainName(name)
    ensures Clean("." + "/" + name) == name
  {
    ResolveAppendName(".", name);
    SplitDot();
    assert Resolve([], ["."], false) == Resolve([], [], false) == [];
    CleanOfStack("." + "/" + name, [name]);
  }

  lemma CleanRootName(name: string)
    requires PlainName(name)
    ensures Clean("/" + "/" + name) == "/" + name
  {
    ResolveAppendName("/", name);
    SplitRoot();
    assert ["", ""][1..] == [""] && [""][1..] == [];
    assert Resolve([], [""], true) == [];
    assert Resolve([], ["", ""], true) == [];
    CleanOfStack("/" + "/" + name, [name]);
  }

  lemma CleanDirName(base: string, name: string)
    requires IsClean(base) && base != "." && base != "/" && PlainName(name)
    ensures Clean(base + "/" + name) == base + "/" + name
  {
    var p := base + "/" + name;
    assert p[0] == base[0];
    ResolveAppendName(base, name);
    CleanBaseStack(base);
    if base[0] == '/' {
      var parts := Split(base[1..]);
      JoinSegmentsAppend(parts, name);
      JoinSplit(base[1..]);
      CleanOfStack(p, parts + [name]);
      assert "/" + (base[1..] + "/" + name) == p;
    } else {
      var parts := Split(base);
      JoinSegmentsAppend(parts, name);
      JoinSplit(base);
      CleanOfStack(p, parts + [name]);
    }
  }

  /** Cleaning a path whose element list resolves to a non-empty `stack`
      joins the stack, behind a '/' when the path is rooted. */
  lemma CleanOfStack(p: string, stack: seq<string>)
    requires p != "" && stack != []
    requires Resolve([], Split(p), p[0] == '/') == stack
    ensures Clean(p) == if p[0] == '/' then "/" + JoinSegments(stack) else JoinSegments(stack)
  {
  }

  lemma ResolveAppendName(base: string, name: string)
    requires base != "" && PlainName(name)
    ensures Resolve([], Split(base + "/" + name), base[0] == '/')
         == Resolve([], Split(base), base[0] == '/') + [name]
  {
    var rooted := base[0] == '/';
    SplitConcat(base, name);
    SplitName(name);
    ResolveConcat([], Split(base), [name], rooted);
    var r := Resolve([], Split(base), rooted);
    assert Resolve(r, [name], rooted) == Resolve(r + [name], [], rooted) == r + [name];
  }

  /** The element list of a clean path other than "." and "/" resolves to
      itself (after the leading root). */
  lemma CleanBaseStack(base: string)
    requires IsClean(base) && base != "." && base != "/"
    ensures base[0] == '/' ==> Resolve([], Split(base), true) == Split(base[1..])
    ensures base[0] != '/' ==> Resolve([], Split(base), false) == Split(base)
  {
    if base[0] == '/' {
      var parts := Split(base[1..]);
      assert Split(base) == [""] + parts;
      assert [] + parts == parts;
      ResolveKeepsNormal([], parts, true);
    } else {
      var parts := Split(base);
      assert [] + parts == parts;
      ResolveKeepsNormal([], parts, false);
    }
  }

  /** path.Base: the last element after trailing slashes are removed; "."
      for the empty path and "/" for a path of slashes only. */
  function Base(p: string): (r: string)
    ensures r != ""
    ensures '/' in r ==> r == "/"
    ensures p == "" ==> r == "."
    ensures p != "" && TrimTrailingSlashes(p) == "" ==> r == "/"
  {
    if p == "" then "."
    else
      var last := AfterLastSlash(TrimTrailingSlashes(p));
      if last == "" then "/" else last
  }

  /** Otherwise path.Base is the last element: the longest slash-free
      suffix of the path once its trailing slashes are removed. */
  lemma BaseIsLastElement(p: string)
    requires TrimTrailingSlashes(p) != ""
    ensures |Base(p)| <= |TrimTrailingSlashes(p)|
    ensures TrimTrailingSlashes(p)[|TrimTrailingSlashes(p)| - |Base(p)|..] == Base(p)
    ensures '/' !in Base(p)
    ensures |Base(p)| == |TrimTrailingSlashes(p)| || TrimTrailingSlashes(p)[|TrimTrailingSlashes(p)| - |Base(p)| - 1] == '/'
  {
    var t := TrimTrailingSlashes(p);
    var last := AfterLastSlash(t);
    assert t[|t| - 1] != '/';
    assert last != "";
    assert p != "";
    assert Base(p) == last;
  }

  function TrimTrailingSlashes(p: string): (r: string)
    ensures r <= p
    ensures r == "" || r[|r| - 1] != '/'
    ensures forall k | |r| <= k < |p| :: p[k] == '/'
    decreases |p|
  {
    if |p| > 0 && p[|p| - 1] == '/' then TrimTrailingSlashes(p[..|p| - 1]) else p
  }

  /** The part of `p` after its last '/', all of `p` if it has none. */
  function AfterLastSlash(p: string): (r: string)
    ensures '/' !in r
    ensures |r| <= |p| && r == p[|p| - |r|..]
    ensures |r| == |p| || p[|p| - |r| - 1] == '/'
    decreases |p|
  {
    if |p| == 0 || p[|p| - 1] == '/' then ""
    else AfterLastSlash(p[..|p| - 1]) + [p[|p| - 1]]
  }

  lemma {:induction false} AfterLastSlashOfName(name: string)
    requires '/' !in name
    ensures AfterLastSlash(name) == name
    decreases |name|
  {
    if |name| > 0 {
      var init := name[..|name| - 1];
      assert name[|name| - 1] in name;
      assert forall k | 0 <= k < |init| :: init[k] == name[k];
      AfterLastSlashOfName(init);
      assert init + [name[|name| - 1]] == name;
    }
  }

  /** A non-empty name without '/' is its own base. */
  lemma BaseOfBareName(name: string)
    requires name != "" && '/' !in name
    ensures Base(name) == name
  {
    assert TrimTrailingSlashes(name) == name by {
      assert name[|name| - 1] in name;
    }
    AfterLastSlashOfName(name);
  }

  /** The base of "dir/name" is "name" when the name is non-empty and has no slash. */
  lemma {:induction false} BaseOfFile(dir: string, name: string)
    requires |dir| > 0 && dir[|dir| - 1] == '/'
    requires name != "" && '/' !in name
    ensures Base(dir + name) == name
  {
    AfterLastSlashOfFile(dir, name);
  }

  lemma {:induction false} AfterLastSlashOfFile(dir: string, name: string)
    requires |dir| > 0 && dir[|dir| - 1] == '/'
    requires '/' !in name
    ensures AfterLastSlash(dir + name) == name
    decreases |name|
  {
    var p := dir + name;
    if |name| == 0 {
      assert p == dir;
    } else {
      assert p[..|p| - 1] == dir + name[..|name| - 1];
      assert name[|name| - 1] in name;
      AfterLastSlashOfFile(dir, name[..|name| - 1]);
      assert name[..|name| - 1] + [name[|name| - 1]] == name;
    }
  }
}

=== FILE: pkcs7.dfy ===
/** PKCS#7 padding as in section 6.3 of RFC 5652, written the way
    pkg/decode/aes.go does it: padding appends 1..blockSize copies of the pad
    length, and unpadding trusts the last byte without checking the others. */
module Pkcs7 {
  import opened Wrappers

  datatype UnpadError = EmptyInput

  /** `n` copies of byte `b`, as `bytes.Repeat([]byte{b}, n)`. */
  function Repeat(b: byte, n: nat): (r: Bytes)
    ensures |r| == n
    ensures forall i | 0 <= i < n :: r[i] == b
  {
    seq(n, _ => b)
  }

  /** pkcs7Padding: the block size must be positive (Go divides by it). */
  function Pad(data: Bytes, blockSize: int): (padded: Bytes)
    requires blockSize >= 1
    ensures |data| < |padded| <= |data| + blockSize
    ensures |padded| % blockSize == 0
    ensures padded[..|data|] == data
    ensures forall i | |data| <= i < |padded| :: padded[i] == ToByte(|padded| - |data|)
  {
    var padding := blockSize - |data| % blockSize;
    PaddedLengthIsMultiple(|data|, blockSize);
    data + Repeat(ToByte(padding), padding)
  }

  lemma PaddedLengthIsMultiple(n: nat, blockSize: int)
    requires blockSize >= 1
    ensures 0 < blockSize - n % blockSize <= blockSize
    ensures (n + (blockSize - n % blockSize)) % blockSize == 0
  {
    var q := n / blockSize;
    assert n + (blockSize - n % blockSize) == (q + 1) * blockSize;
    MultipleHasNoRemainder(q + 1, blockSize);
  }

  lemma MultipleHasNoRemainder(k: nat, m: int)
    requires m >= 1
    ensures (k * m) % m == 0
  {
    if k > 0 {
      assert k * m == (k - 1) * m + m;
      AddModulus((k - 1) * m, m);
      MultipleHasNoRemainder(k - 1, m);
    }
  }

  lemma AddModulus(x: int, m: int)
    requires m >= 1
    ensures (x + m) % m == x % m
  {
    var q, r := x / m, x % m;
    var q2, r2 := (x + m) / m, (x + m) % m;
    assert (q2 - q - 1) * m == r - r2 by {
      assert x == q * m + r;
      assert x + m == q2 * m + r2;
      assert (q2 - q - 1) * m == q2 * m - q * m - m;
    }
    SmallMultipleIsZero(q2 - q - 1, m);
  }

  lemma SmallMultipleIsZero(d: int, m: int)
    requires m >= 1
    requires -m < d * m < m
    ensures d == 0
  {
    MultipleBounds(d, m);
  }

  lemma MultipleBounds(d: int, m: int)
    requires m >= 1
    ensures d >= 1 ==> d * m >= m
    ensures d <= -1 ==> d * m <= -m
  {
    if d >= 1 {
      assert (d - 1) * m >= 0;
      assert d * m == (d - 1) * m + m;
    } else if d <= -1 {
      assert (-d - 1) * m >= 0;
      assert d * m == -((-d - 1) * m) - m;
    }
  }

  /** Slicing `data[:length-unPadding]` panics unless the last byte is at
      most the length; every caller must rule that out. */
  predicate CanUnpad(data: Bytes) {
    |data| == 0 || data[|data| - 1] as int <= |data|
  }

  /** pkcs7UnPadding: an error on empty input; otherwise drops as many
      trailing bytes as the last byte says, whatever those bytes hold. */
  function Unpad(data: Bytes): (r: Result<Bytes, UnpadError>)
    requires CanUnpad(data)
    ensures r.Err? <==> |data| == 0
    ensures r.Ok? ==> r.value <= data
    ensures r.Ok? ==> |r.value| == |data| - data[|data| - 1] as int
  {
    if |data| == 0 then Err(EmptyInput)
    else Ok(data[..|data| - data[|data| - 1] as int])
  }

  /** Unpadding undoes padding for every block size that fits in a byte. */
  lemma UnpadPad(data: Bytes, blockSize: int)
    requires 1 <= blockSize <= 255
    ensures CanUnpad(Pad(data, blockSize))
    ensures Unpad(Pad(data, blockSize)) == Ok(data)
  {
    var padded := Pad(data, blockSize);
    assert padded[|padded| - 1] as int == |padded| - |data|;
  }

  /** The pad bytes other than the last are never inspected: any filler
      followed by its own length unpads to the same prefix. */
  lemma UnpadIgnoresFiller(prefix: Bytes, filler: Bytes)
    requires |filler| + 1 < 256
    ensures CanUnpad(prefix + filler + [ToByte(|filler| + 1)])
    ensures Unpad(prefix + filler + [ToByte(|filler| + 1)]) == Ok(prefix)
  {
    var data := prefix + filler + [ToByte(|filler| + 1)];
    assert data[..|prefix|] == prefix;
  }

  /** The round trip stops at 255: a 256-byte block pads the empty input with
      256 zero bytes, and a zero last byte strips nothing. */
  lemma PadRoundTripNeedsByteSizedBlocks()
    ensures Unpad(Pad([], 256)) != Ok([])
  {
    var padded := Pad([], 256);
    assert padded[255] == 0;
    assert |Unpad(padded).value| == 256;
  }
}

=== FILE: urls.dfy ===
/** ResolveURL of pkg/utils/url.go: absolute http(s) URLs pass through,
    anything else is path-joined onto the base. */
module Urls {
  import opened GoStrings
  import Paths

  predicate IsAbsolute(url: string) {
    HasPrefix(url, "https://") || HasPrefix(url, "http://")
  }

  function ResolveUrl(base: string, url: string): (r: string)
    ensures IsAbsolute(url) ==> r == url
    ensures !IsAbsolute(url) ==> r == Paths.Join(base, url)
    ensures !IsAbsolute(url) ==> (r == "" <==> base == "" && url == "")
    ensures !IsAbsolute(url) && r != "" ==> Paths.IsClean(r)
  {
    if IsAbsolute(url) then url else Paths.Join(base, url)
  }

  /** A segment URI that is a plain file name is appended to a clean base
      with one '/'. */
  lemma PlainSegmentIsAppended(base: string, name: string)
    requires Paths.IsClean(base) && base != "." && base != "/"
    requires Paths.PlainName(name)
    ensures ResolveUrl(base, name) == base + "/" + name
  {
    // both schemes carry a '/' that a plain name lacks
    if |name| >= 7 {
      assert name[5] in name && name[..7][5] == name[5] != '/' == "http://"[5];
    }
    if |name| >= 8 {
      assert name[6] in name && name[..8][6] == name[6] != '/' == "https://"[6];
    }
    Paths.JoinPlainName(base, name);
  }

  /** Cleaning the result of the join branch again changes nothing. */
  lemma JoinedUrlIsStable(base: string, url: string)
    requires !IsAbsolute(url)
    ensures ResolveUrl(base, url) == "" || Paths.Clean(ResolveUrl(base, url)) == ResolveUrl(base, url)
  {
    var r := ResolveUrl(base, url);
    if r != "" {
      Paths.CleanKeepsClean(r);
    }
  }

  /** The prefix test is exact and case-sensitive: an upper-case scheme is
      not recognised and the URL is joined onto the base like a path. */
  lemma UpperCaseSchemeIsJoined(base: string)
    ensures !IsAbsolute("HTTP://x")
    ensures ResolveUrl(base, "HTTP://x") == Paths.Join(base, "HTTP://x")
  {
    assert "HTTP://x"[..7][0] == 'H';
    assert "HTTP://x"[..8][0] == 'H';
  }

  /** Other schemes are joined too. */
  lemma OtherSchemeIsJoined(base: string)
    ensures ResolveUrl(base, "ftp://x") == Paths.Join(base, "ftp://x")
  {
    assert "ftp://x"[..7][0] == 'f';
  }

  /** Joining collapses the double slash of an absolute base: a segment
      "seg.ts" under base "https://host" resolves to "https:/host/seg.ts". */
  lemma HttpsBaseCollapses()
    ensures ResolveUrl("https://host", "seg.ts") == "https:/host/seg.ts"
  {
    assert "seg.ts"[..6][0] == 's';
    CleanExample();
  }

  lemma CleanExample()
    ensures Paths.Clean("https://host" + "/" + "seg.ts") == "https:/host/seg.ts"
  {
    var p := "https://host" + "/" + "seg.ts";
    assert p[0] == 'h';
    SplitExample();
    ResolveExample();
    JoinExample();
  }

  lemma JoinExample()
    ensures Paths.JoinSegments(["https:", "host", "seg.ts"]) == "https:/host/seg.ts"
  {
    var parts := ["https:", "host", "seg.ts"];
    assert parts[1..] == ["host", "seg.ts"];
    assert parts[1..][1..] == ["seg.ts"];
    assert Paths.JoinSegments(["seg.ts"]) == "seg.ts";
    assert Paths.JoinSegments(["host", "seg.ts"]) == "host/seg.ts";
  }

  lemma ResolveExample()
    ensures Paths.Resolve([], ["https:", "", "host", "seg.ts"], false) == ["https:", "host", "seg.ts"]
  {
    var elems := ["https:", "", "host", "seg.ts"];
    assert Paths.Push([], "https:", false) == ["https:"];
    assert Paths.Push(["https:"], "", false) == ["https:"];
    assert Paths.Push(["https:"], "host", false) == ["https:", "host"];
    assert Paths.Push(["https:", "host"], "seg.ts", false) == ["https:", "host", "seg.ts"];
    assert elems[1..] == ["", "host", "seg.ts"];
    assert elems[1..][1..] == ["host", "seg.ts"];
    assert elems[1..][1..][1..] == ["seg.ts"];
  }

  lemma SplitExample()
    ensures Paths.Split("https://host" + "/" + "seg.ts") == ["https:", "", "host", "seg.ts"]
  {
    var tail := "host" + "/" + "seg.ts";
    assert "https://host" + "/" + "seg.ts" == "https:" + "/" + ("" + "/" + tail);
    Paths.SplitAtSlash("https:", "" + "/" + tail);
    Paths.SplitAtSlash("", tail);
    Paths.SplitAtSlash("host", "seg.ts");
    Paths.SplitSlashFreePrefix("seg.ts", "");
    assert "seg.ts" + "" == "seg.ts";
  }
}

=== FILE: wrappers.dfy ===
/** Failure-carrying results and the byte vocabulary shared by every module. */
module Wrappers {

  /** A value that may be absent, like a Go nil pointer. */
  datatype Option<+T> = None | Some(value: T)

  /** A Go `(value, error)` pair where exactly one side is meaningful. */
  datatype Result<+R, +E> = Ok(value: R) | Err(error: E)

  type byte = bv8

  /** A Go `[]byte`; a Go string holding binary data is modelled the same way,
      since `[]byte(s)` hands over the string's bytes unchanged. */
  type Bytes = seq<byte>

  /** Go's `byte(n)` conversion keeps the low eight bits of `n`. */
  function ToByte(n: int): (b: byte)
    ensures 0 <= n < 256 ==> b as int == n
    ensures b as int == n % 256
  {
    ByteOf(n % 256)
  }

  /** The byte whose value is `m`, built up one increment at a time. */
  function ByteOf(m: nat): (b: byte)
    requires m < 256
    ensures b as int == m
  {
    if m == 0 then 0 else ByteOf(m - 1) + 1
  }
}
